=== FILE: README.md ===
# Limit-up breakout backtest: a Dafny model

The application backtests one trading strategy on the daily bars of a single
stock. The strategy looks for a "burst point". The stock must have had a
near limit-up day (percent change above 9.5) in the last 30 bars. The market
index must be above its 5-bar average. A smoothed momentum oscillator must be
rising and above -20. The 7-bar average of the close must be rising. The
close must break the previous bar's high while staying at most 3% above the
7-bar average.

On such a bar the backtest buys with all its cash at the close. The stop line
is the bar's low. The position is sold in full at a later close that falls
below the stop line or below the 7-bar average. Each bar records the account
value. The final value, the return on the starting capital and the number of
signal bars make up the result.

The model follows the script as written. It has five parts.

- `Series` holds the pandas building blocks the indicators use:
  - sums;
  - rolling means and maxima with a full-window requirement;
  - the exponential moving average with span 6 and no bias adjustment.
- `Indicators` defines the bar and the columns derived from it:
  - `ma7` and `idx_ma5`;
  - the oscillator `q2`, which is `100 * EMA(EMA(diff)) / EMA(EMA(|diff|))`;
  - the percent-change fallback used when the data source omits that column.
- `Signal` is the seven-way conjunction `xg`.
- `Backtest` is the single-position trading loop as a fold over the bars.
  `TradeLog` holds the invariants of that fold.
- `Metrics` covers the result panel. `Strategy` puts the parts together.
  `Scenarios` holds worked examples.

Pandas missing values (NaN) are `Option<real>`. A comparison with a missing
value is false, as it is for NaN. Prices are exact reals.

## Model

| member | source | states |
|---|---|---|
| Indicators.Ma7 | streamlit_app.py:57 | `ma7` is missing on the first six bars. From bar 6 on it is the mean of the last seven closes. |
| Indicators.IdxMa5 | streamlit_app.py:58 | `idx_ma5` is present exactly when the five index closes ending at that bar are all present. A missing index close from the merge blocks the five averages that cover it. When present, five times `idx_ma5` is the sum of those five index closes. |
| Series.RollingMean | streamlit_app.py:57-58 | A rolling mean is present exactly when its window is complete and has no missing value. Then the mean times the window size is the sum of the window's values. |
| Series.SumOptValues | streamlit_app.py:57-58 | The sum of a window with no missing value is present and equals the plain sum of its values. |
| Series.RollingMeanConstant | streamlit_app.py:58 | A rolling mean over a window of equal present values is that value. |
| Series.EmaClosedForm | streamlit_app.py:62-63 | Each output of the average is a weighted sum of the inputs so far. The first input has weight `(1 - 2/7)^k` and input `j > 0` has weight `2/7 * (1 - 2/7)^(k - j)`. This is the weighted form of `ewm(span=6, adjust=False)`. |
| Series.EmaStreamAgrees | streamlit_app.py:62-63 | The indexed definition of the average equals the row-by-row computation that appends one blended value per input, seeded with the first value. |
| Series.EmaCausal | streamlit_app.py:62-63 | The average at a bar depends only on inputs up to that bar: averaging a prefix gives the prefix of the average. |
| Series.EmaDominated | streamlit_app.py:62-63 | If every input is bounded in absolute value by a second series, every average is bounded in absolute value by the second series' average. |
| Series.DoubleEmaZeroAt | streamlit_app.py:63 | The twice-smoothed average of non-negative inputs is non-negative. It is zero exactly when all inputs so far are zero. |
| Indicators.SmoothedMoveDominated | streamlit_app.py:61-63 | The absolute value of the smoothed close-to-close move never exceeds the smoothed absolute move. |
| Indicators.SmoothedRangeZero | streamlit_app.py:61-63 | The smoothed absolute move is non-negative. It is zero exactly when the close has not changed so far. |
| Indicators.Q2 | streamlit_app.py:61-64 | `q2` has one entry per bar. It is missing exactly on bar 0 and on bars where every close so far equals the first close, the 0/0 case. Every present `q2` lies in [-100, 100]. |
| Indicators.Q2Value | streamlit_app.py:64 | On bar `i > 0`, `q2` is present exactly when the twice-smoothed absolute move is non-zero. Then `q2` times that move is 100 times the twice-smoothed move, so `q2 = 100 * q_ema / q_abs_ema`. |
| Indicators.PctChange | streamlit_app.py:37 | The fallback percent change is missing on bar 0. On a later bar it is present, and times the previous close it is 100 times the change from the previous close. |
| Indicators.PctChangeAbove | streamlit_app.py:37 | The fallback percent change is present from bar 1 on. It exceeds a threshold `t` exactly when the close exceeds `(1 + t/100)` times the previous close. |
| Series.RollingMaxAbove | streamlit_app.py:69 | The 30-bar trailing maximum exceeds a threshold exactly when the window is complete, has no missing value, and some day in it exceeds the threshold. |
| Signal.XgAt | streamlit_app.py:68-73 | When the signal holds, bar `i` is at least 29. The 30-bar percent-change window, the index close, `idx_ma5`, `ma7` today and yesterday, and `q2` today and yesterday are then all present. The `xg` column (`Signal.Xg`) has one such entry per bar. |
| Signal.ShortSeriesNoSignal | streamlit_app.py:69 | A series shorter than 30 bars has no signal bar. |
| Signal.RecentLimitUpIff | streamlit_app.py:69 | The limit-up condition holds exactly when the full 30-bar window is present and one of its days has a percent change above 9.5. |
| Signal.NoLimitUpNoSignal | streamlit_app.py:69 | Without a day above 9.5 in the last 30 bars there is no signal. |
| Signal.FlatIndexNoSignal | streamlit_app.py:68 | An index close equal over the last five bars is not strictly above its average, so there is no signal. |
| Signal.ConstantIndexNoSignal | streamlit_app.py:68 | A constant index blocks the signal on every bar. |
| Signal.TrendRisingIff | streamlit_app.py:71 | From bar 7 on, `ma7` rises exactly when today's close is above the close seven bars earlier. |
| Signal.NotExtendedIff | streamlit_app.py:73 | With positive closes, the extension condition holds exactly when `ma7` is present and `100 * close <= 103 * ma7`. |
| Backtest.CheckExit | streamlit_app.py:82-86 | A held position is sold exactly when the close is below the stop line or below a present `ma7`. The sale logs one sell at the close, leaves no shares, keeps the stop and sets the cash to the shares times the close. Otherwise the account is unchanged. |
| Backtest.CheckEntry | streamlit_app.py:89-93 | A buy happens exactly on a signal bar with no shares. It logs one buy at the close, buys the cash divided by the close in shares, leaves no cash and sets the stop to the bar's low. Otherwise the account is unchanged. |
| Backtest.Step | streamlit_app.py:82-95 | One bar logs at most two lines. A held position that logs nothing is untouched. The stop changes only with a buy, to that bar's low. |
| Backtest.ExitThenEntry | streamlit_app.py:82-93 | The exit check comes first: a held position that meets the exit rule is sold, and the sell is the bar's first log line. The entry check sees the account after the exit. On a signal bar that starts without shares, or that just sold, the last log line is a buy at the close and the stop becomes that bar's low. So one bar can sell and buy again. |
| Backtest.StepConservesValue | streamlit_app.py:84-95 | When cash or shares is zero before a bar, the value recorded on that bar is the old cash plus the old shares at the close. Trading at the close neither creates nor destroys value. |
| Backtest.Run | streamlit_app.py:79-97 | The loop records exactly one account value per bar. |
| Backtest.HistoryStable | streamlit_app.py:79-95 | Values recorded on earlier bars never change later. The log only grows by appending. |
| Backtest.RunLogAtCloses | streamlit_app.py:86-93 | Every log line names a bar already processed and carries that bar's close. |
| Backtest.RunLastValue | streamlit_app.py:95-101 | The last recorded value is the final cash plus the final shares at the last close. |
| Backtest.NoSignalRun | streamlit_app.py:76-95 | Without any signal the log stays empty, the account stays at the opening state and every recorded value is the capital. |
| Backtest.Simulate | streamlit_app.py:76-97 | The imperative loop produces the same value history and log as the fold `Run`. |
| TradeLog.RunKeepsInvariant | streamlit_app.py:76-95 | The log is well formed after every bar. While flat, cash is the capital compounded over the closed trades and there are no shares. While long, there is no cash, the shares are worth that amount at the entry price, and the stop is the entry bar's low. |
| Backtest.NeverBoth | streamlit_app.py:84-91 | Whatever the capital, after any number of bars the account has no cash or no shares. A sale empties the shares and a buy spends all the cash. |
| TradeLog.CashSharesExclusive | streamlit_app.py:84-91 | With positive capital and closes, the account is either cash with no shares or shares with no cash. |
| TradeLog.LogAlternates | streamlit_app.py:82-93 | The log alternates buy, sell, buy and starts with a buy, in bar order. A sell may share its bar with the next buy, but a buy is sold on a later bar. Every line is at its bar's close. Each buy is on a signal bar, and each sell fires the exit rule against the entry bar's low. The position is open exactly when the log has odd length. |
| TradeLog.StopIsEntryLow | streamlit_app.py:83-92 | While a position is open, the stop line is the low of the bar of the last log line, which is a buy. It is a fixed floor, not a trailing stop. |
| TradeLog.EquityConserved | streamlit_app.py:84-95 | Whatever the capital, the value recorded on bar `i` is the cash plus the shares held before that bar, priced at its close. |
| TradeLog.FinalEquity | streamlit_app.py:95-101 | The final value is the capital times the product of exit over entry price over the closed trades. If a position is still open, it is also multiplied by the last close over the entry price. |
| TradeLog.HoldingValue | streamlit_app.py:95 | An account in the invariant state is worth the compounded capital at any close. |
| Metrics.CountSignals | streamlit_app.py:104 | The signal count is at most the number of bars. It is zero exactly when no bar signals, and equals the number of bars exactly when all do. |
| Metrics.CountSignalsIsCardinality | streamlit_app.py:104 | The signal count is the number of distinct signal bars. |
| Metrics.ReturnPct | streamlit_app.py:103 | The return is missing exactly when the capital is zero. Otherwise it times the capital is `(final - capital) * 100`. |
| Metrics.ReturnSign | streamlit_app.py:103 | With positive capital the return is positive, zero or negative exactly as the final value is above, at or below the capital. |
| Metrics.Summarize | streamlit_app.py:101-104 | The panel shows the last recorded value, the return on it and the number of signal bars. |
| Strategy.Report | streamlit_app.py:57-104 | The end-to-end panel counts the signal bars of the series' own `xg` column. Its final value is the last value of the loop run on the series' own `ma7` and `xg`, and its return is the return of that final value on the capital. |
| Strategy.NoSignalFlat | streamlit_app.py:76-104 | A series with no signal bar trades never. It reports the capital as the final value, a signal count of zero and, with non-zero capital, a zero return. |
| Strategy.ShortSeriesFlat | streamlit_app.py:69-104 | A series shorter than 30 bars reports a flat result with no trade. |
| Strategy.ConstantIndexFlat | streamlit_app.py:68-104 | A constant index makes the strategy never trade. |
| Backtest.RunBuysOnSignals | streamlit_app.py:79-93 | Whatever the capital, every buy line names a bar already processed, and that bar signals. |
| Strategy.BuysNeedFullHistory | streamlit_app.py:68-93 | Whatever the capital, every buy is on bar 29 or later, on a bar where `ma7` and `q2` are present. |
| Scenarios.RoundTripExample | streamlit_app.py:76-103 | 100000 bought at 10 and sold at 12 becomes 120000, a 20% return. |
| Scenarios.SameBarReentryExample | streamlit_app.py:82-93 | Bought at 10 on bar 0. On bar 1 the close of 12 is below `ma7`, so the position is sold at 12, and the signal buys back at 12 on the same bar. The log is buy, sell, buy, and the recorded values are 100000 and 120000. |
| Scenarios.OpenPositionExample | streamlit_app.py:95-101 | A position still open at the end is marked at the last close and logs no sell. |
| Scenarios.ZeroCapitalExample | streamlit_app.py:89-93 | With zero capital a buy leaves zero shares, so the next signal bar buys again. |
| Scenarios.ZeroCapitalBreaksAlternation | streamlit_app.py:82-93 | With zero capital the log need not alternate, so the alternation needs a positive capital. |

## Left out

- Data acquisition (streamlit_app.py:22-48) is not modelled. This covers the network calls, caching, column renaming, the date merge and the error path. The model takes the merged series as input: bars in date order with an optional percent change and an optional index close. A download with no rows returns before the loop (line 29), so the panel is modelled only for a non-empty series.
- Dates are replaced by the bar index. A log line is (bar, Buy or Sell, price).
- The page layout, sidebar widgets, metric formatting, chart and table (lines 8-20, 100-122) are presentation and are not modelled.
- Floating-point rounding, overflow and infinities are not modelled. Prices are exact reals, and the `:.2f` text of the logged price (lines 86, 93) is the exact close.
- The index close is not forward-filled. The left merge (line 44) leaves it missing on dates the index lacks, and the model follows the code there.
- The script records no per-trade return. The log has only buy and sell lines, and the model follows that.
- Backtest.CheckEntry, Backtest.Step, Backtest.RunUpTo and Backtest.Run: they need the close to be non-zero, every close for the loop. The script would divide by a zero close on a buy and hold an infinite share count.
- Signal.NotExtended: a `ma7` of zero makes the condition false. The script's float division gives an infinity there, which would satisfy `<= 3` when the close is negative. Positive prices rule this case out.
- TradeLog.LogAlternates, TradeLog.CashSharesExclusive, TradeLog.StopIsEntryLow and TradeLog.FinalEquity: these are proved for a positive capital and positive closes only. With zero capital the script's `shares == 0` guard buys again, as `Scenarios.ZeroCapitalExample` shows, so the log need not alternate and the account can be empty. `Backtest.NeverBoth` and `TradeLog.EquityConserved` need only non-zero closes.
- Indicators.PctChange: every close except the last must be non-zero, because each is a divisor. Pandas would give an infinity after a zero close.
- Indicators.Q2: the exponential averages are taken over the close differences, which always exist after bar 0. The model does not cover how pandas skips missing values inside `ewm`, because the close column has none.

=== FILE: backtest.dfy ===
/**
  The single-position trading loop. Starting with all capital in cash, the
  loop visits the bars in order and on each bar
    1. sells the whole position at the close if the close is below the stop
       line or below `ma7`,
    2. buys with all cash at the close if the signal holds and nothing is
       held, fixing the stop line at this bar's low,
    3. records the account value at the close.
  The `ma7` and signal columns are inputs, so everything proved here holds
  whatever indicators feed the loop.
 */
module Backtest {
  import opened Maybe
  import opened Indicators

  datatype Action = Buy | Sell

  /** One line of the action log: the bar it happened on, what was done, at which price. */
  datatype LogEntry = LogEntry(bar: nat, action: Action, price: real)

  /** The loop's scratch state: `cash`, `shares` and `stop_line`. */
  datatype Account = Account(cash: real, shares: real, stop: real)

  /** The state before the first bar: all capital in cash, no shares, stop line 0. */
  function Opening(capital: real): Account
  {
    Account(capital, 0.0, 0.0)
  }

  /** The account after one of the two checks, with the log lines that check wrote. */
  datatype Phase = Phase(account: Account, entries: seq<LogEntry>)

  /** The exit rule: the close is below the stop line or below `ma7` (a missing `ma7` never triggers). */
  predicate ExitRule(close: real, stop: real, ma7: Option<real>)
  {
    close < stop || Lt(Some(close), ma7)
  }

  /**
    Step 1 on bar `i`: while shares are held and the exit rule fires, sell
    everything at the close. Selling turns the position into cash at the
    close and leaves the stop line where it was.
   */
  function CheckExit(a: Account, i: nat, b: Bar, ma7: Option<real>): (r: Phase)
    ensures r.account.stop == a.stop
    ensures r.entries == [] <==> !(a.shares > 0.0 && ExitRule(b.close, a.stop, ma7))
    ensures r.entries == [] ==> r.account == a
    ensures r.entries != [] ==>
      r.entries == [LogEntry(i, Sell, b.close)] && r.account.shares == 0.0 && a.shares > 0.0
    ensures r.entries != [] ==> r.account.cash == a.shares * b.close
  {
    if a.shares > 0.0 && ExitRule(b.close, a.stop, ma7) then
      Phase(Account(a.shares * b.close, 0.0, a.stop), [LogEntry(i, Sell, b.close)])
    else
      Phase(a, [])
  }

  /**
    Step 2 on bar `i`: when the signal holds and no shares are held, spend all
    cash at the close and set the stop line to this bar's low.
   */
  function CheckEntry(a: Account, i: nat, b: Bar, xg: bool): (r: Phase)
    requires b.close != 0.0
    ensures r.entries == [] <==> !(xg && a.shares == 0.0)
    ensures r.entries == [] ==> r.account == a
    ensures r.entries != [] ==>
      r.entries == [LogEntry(i, Buy, b.close)] && r.account.cash == 0.0 &&
      r.account.stop == b.low && a.shares == 0.0 && xg
    ensures r.entries != [] ==> r.account.shares == a.cash / b.close
  {
    if xg && a.shares == 0.0 then
      Phase(Account(0.0, a.cash / b.close, b.low), [LogEntry(i, Buy, b.close)])
    else
      Phase(a, [])
  }

  /** What an account is worth at a given close: `cash + shares * close`. */
  function Value(a: Account, close: real): real
  {
    a.cash + a.shares * close
  }

  /** The account after a bar, the log lines written on it and the recorded account value. */
  datatype StepResult = StepResult(account: Account, entries: seq<LogEntry>, equity: real)

  /**
    One iteration of the loop: the exit check first, then the entry check on
    the account the exit check leaves. A held position that meets the exit
    rule is sold, and a signal on a bar without shares (before or after that
    sale) buys, so a bar can sell and buy again. A held position with no
    trade leaves the account (and so the stop line) unchanged; the stop line
    moves only on a buy, and then to this bar's low.
   */
  function Step(a: Account, i: nat, b: Bar, ma7: Option<real>, xg: bool): (r: StepResult)
    requires b.close != 0.0
    ensures |r.entries| <= 2
    ensures a.shares > 0.0 && r.entries == [] ==> r.account == a
    ensures r.account.stop != a.stop ==>
      r.account.stop == b.low && |r.entries| > 0 && r.entries[|r.entries| - 1].action == Buy
  {
    var x := CheckExit(a, i, b, ma7);
    var e := CheckEntry(x.account, i, b, xg);
    StepResult(e.account, x.entries + e.entries, Value(e.account, b.close))
  }

  /**
    The order of the two checks within a bar: a held position that meets the
    exit rule is always sold, and that sale is the bar's first line; a signal
    then buys whenever the bar starts without shares or has just sold them,
    so a bar can sell and buy again, and the buy is its last line and sets
    the stop to the bar's low.
   */
  lemma ExitThenEntry(a: Account, i: nat, b: Bar, ma7: Option<real>, xg: bool)
    requires b.close != 0.0
    ensures var r := Step(a, i, b, ma7, xg);
      a.shares > 0.0 && ExitRule(b.close, a.stop, ma7) ==>
        |r.entries| > 0 && r.entries[0] == LogEntry(i, Sell, b.close)
    ensures var r := Step(a, i, b, ma7, xg);
      xg && (a.shares == 0.0 || (a.shares > 0.0 && ExitRule(b.close, a.stop, ma7))) ==>
        |r.entries| > 0 && r.entries[|r.entries| - 1] == LogEntry(i, Buy, b.close) && r.account.stop == b.low
  {
  }

  /**
    Trades happen at the close, so whenever cash and shares are not both
    non-zero, the value a bar records is the previous cash plus the previous
    shares at this close: selling and buying conserve value.
   */
  lemma {:induction false} StepConservesValue(a: Account, i: nat, b: Bar, ma7: Option<real>, xg: bool)
    requires b.close != 0.0
    requires a.cash == 0.0 || a.shares == 0.0
    ensures Step(a, i, b, ma7, xg).equity == Value(a, b.close)
  {
    var x := CheckExit(a, i, b, ma7);
    var e := CheckEntry(x.account, i, b, xg);
    if x.entries != [] {
      assert x.account.cash + x.account.shares * b.close == a.cash + a.shares * b.close;
    }
    if e.entries != [] {
      assert e.account.shares * b.close == x.account.cash;
    }
  }

  /** What the loop has produced: the state after the last bar, the account values and the log. */
  datatype Outcome = Outcome(account: Account, history: seq<real>, log: seq<LogEntry>)

  predicate Aligned(bars: seq<Bar>, ma7: seq<Option<real>>, xg: seq<bool>)
  {
    |ma7| == |bars| && |xg| == |bars|
  }

  predicate NoZeroClose(bars: seq<Bar>)
  {
    forall k :: 0 <= k < |bars| ==> bars[k].close != 0.0
  }

  predicate PositivePrices(bars: seq<Bar>)
  {
    forall k :: 0 <= k < |bars| ==> bars[k].close > 0.0
  }

  /** The loop run over the first `n` bars: one account value is recorded per bar. */
  function RunUpTo(bars: seq<Bar>, ma7: seq<Option<real>>, xg: seq<bool>, capital: real, n: nat): (r: Outcome)
    requires Aligned(bars, ma7, xg) && NoZeroClose(bars) && n <= |bars|
    ensures |r.history| == n
    decreases n
  {
    if n == 0 then Outcome(Opening(capital), [], [])
    else
      var prev := RunUpTo(bars, ma7, xg, capital, n - 1);
      var s := Step(prev.account, n - 1, bars[n - 1], ma7[n - 1], xg[n - 1]);
      Outcome(s.account, prev.history + [s.equity], prev.log + s.entries)
  }

  /** The whole loop over every bar, from the opening account. */
  function Run(bars: seq<Bar>, ma7: seq<Option<real>>, xg: seq<bool>, capital: real): (r: Outcome)
    requires Aligned(bars, ma7, xg) && NoZeroClose(bars)
    ensures |r.history| == |bars|
  {
    RunUpTo(bars, ma7, xg, capital, |bars|)
  }

  /** Later bars never change the values already recorded (no look-ahead). */
  lemma {:induction false} HistoryStable(bars: seq<Bar>, ma7: seq<Option<real>>, xg: seq<bool>, capital: real, m: nat, n: nat)
    requires Aligned(bars, ma7, xg) && NoZeroClose(bars) && m <= n <= |bars|
    ensures RunUpTo(bars, ma7, xg, capital, n).history[..m] == RunUpTo(bars, ma7, xg, capital, m).history
    ensures RunUpTo(bars, ma7, xg, capital, m).log <= RunUpTo(bars, ma7, xg, capital, n).log
    decreases n - m
  {
    if m < n {
      HistoryStable(bars, ma7, xg, capital, m, n - 1);
      var prev := RunUpTo(bars, ma7, xg, capital, n - 1);
      assert RunUpTo(bars, ma7, xg, capital, n).history[..n - 1] == prev.history;
      assert RunUpTo(bars, ma7, xg, capital, n).history[..m] == prev.history[..m];
    }
    else {
      assert RunUpTo(bars, ma7, xg, capital, n).history[..m] == RunUpTo(bars, ma7, xg, capital, n).history;
    }
  }

  /** The value a step records is the account it leaves, marked at the close. */
  lemma {:induction false} StepEquity(a: Account, i: nat, b: Bar, ma7: Option<real>, xg: bool)
    requires b.close != 0.0
    ensures var s := Step(a, i, b, ma7, xg); s.equity == Value(s.account, b.close)
  {
  }

  /** One more bar extends the run by one step. */
  lemma {:induction false} RunUpToNext(bars: seq<Bar>, ma7: seq<Option<real>>, xg: seq<bool>, capital: real, n: nat)
    requires Aligned(bars, ma7, xg) && NoZeroClose(bars) && n < |bars|
    ensures var prev := RunUpTo(bars, ma7, xg, capital, n);
      var s := Step(prev.account, n, bars[n], ma7[n], xg[n]);
      RunUpTo(bars, ma7, xg, capital, n + 1) == Outcome(s.account, prev.history + [s.equity], prev.log + s.entries)
  {
  }

  /** The lines a step writes name its own bar and carry its close. */
  lemma {:induction false} StepEntriesAt(a: Account, i: nat, b: Bar, ma7: Option<real>, xg: bool)
    requires b.close != 0.0
    ensures var s := Step(a, i, b, ma7, xg);
      forall k :: 0 <= k < |s.entries| ==> s.entries[k].bar == i && s.entries[k].price == b.close
  {
  }

  /** Every log line names a bar of the series and carries that bar's close. */
  predicate AtCloses(log: seq<LogEntry>, bars: seq<Bar>)
  {
    forall k :: 0 <= k < |log| ==> log[k].bar < |bars| && log[k].price == bars[log[k].bar].close
  }

  /** Every line of `log` is at its bar's close, and that bar is one of the first `n`. */
  predicate LoggedBefore(log: seq<LogEntry>, bars: seq<Bar>, n: nat)
  {
    AtCloses(log, bars) && forall k :: 0 <= k < |log| ==> log[k].bar < n
  }

  /** Every log line of the first `n` bars names one of those bars and carries its close. */
  lemma {:induction false} RunLogAtCloses(bars: seq<Bar>, ma7: seq<Option<real>>, xg: seq<bool>, capital: real, n: nat)
    requires Aligned(bars, ma7, xg) && NoZeroClose(bars) && n <= |bars|
    ensures LoggedBefore(RunUpTo(bars, ma7, xg, capital, n).log, bars, n)
    decreases n
  {
    if n > 0 {
      var i := n - 1;
      RunLogAtCloses(bars, ma7, xg, capital, i);
      var prev := RunUpTo(bars, ma7, xg, capital, i);
      var s := Step(prev.account, i, bars[i], ma7[i], xg[i]);
      StepEntriesAt(prev.account, i, bars[i], ma7[i], xg[i]);
      var log := RunUpTo(bars, ma7, xg, capital, n).log;
      assert log == prev.log + s.entries by {
        RunUpToNext(bars, ma7, xg, capital, i);
      }
      forall k | 0 <= k < |log|
        ensures log[k].bar < n && log[k].bar < |bars| && log[k].price == bars[log[k].bar].close
      {
        if k < |prev.log| {
          assert log[k] == prev.log[k];
        }
        else {
          assert log[k] == s.entries[k - |prev.log|];
        }
      }
    }
  }

  /** A buy line written by a step is on that step's bar and needs the signal there. */
  lemma {:induction false} StepBuysOnSignal(a: Account, i: nat, b: Bar, ma7: Option<real>, xg: bool)
    requires b.close != 0.0
    ensures var s := Step(a, i, b, ma7, xg);
      forall k :: 0 <= k < |s.entries| && s.entries[k].action == Buy ==> s.entries[k].bar == i && xg
  {
    var x := CheckExit(a, i, b, ma7);
    var e := CheckEntry(x.account, i, b, xg);
    var entries := x.entries + e.entries;
    forall k | 0 <= k < |entries| && entries[k].action == Buy
      ensures entries[k].bar == i && xg
    {
      if k < |x.entries| {
        assert entries[k] == x.entries[k];
      } else {
        assert entries[k] == e.entries[k - |x.entries|];
      }
    }
  }

  /** Every buy line of `log` names one of the first `n` bars, and that bar signals. */
  predicate BuysOnSignals(log: seq<LogEntry>, xg: seq<bool>, n: nat)
  {
    forall k :: 0 <= k < |log| && log[k].action == Buy ==> log[k].bar < n && log[k].bar < |xg| && xg[log[k].bar]
  }

  /**
    Whatever the capital, every buy of the first `n` bars is on a signal bar:
    the entry check is the only place a buy is written, and it needs `xg`.
   */
  lemma {:induction false} RunBuysOnSignals(bars: seq<Bar>, ma7: seq<Option<real>>, xg: seq<bool>, capital: real, n: nat)
    requires Aligned(bars, ma7, xg) && NoZeroClose(bars) && n <= |bars|
    ensures BuysOnSignals(RunUpTo(bars, ma7, xg, capital, n).log, xg, n)
    decreases n
  {
    if n > 0 {
      var i := n - 1;
      RunBuysOnSignals(bars, ma7, xg, capital, i);
      var prev := RunUpTo(bars, ma7, xg, capital, i);
      var s := Step(prev.account, i, bars[i], ma7[i], xg[i]);
      StepBuysOnSignal(prev.account, i, bars[i], ma7[i], xg[i]);
      var log := RunUpTo(bars, ma7, xg, capital, n).log;
      assert log == prev.log + s.entries by {
        RunUpToNext(bars, ma7, xg, capital, i);
      }
      forall k | 0 <= k < |log| && log[k].action == Buy
        ensures log[k].bar < n && log[k].bar < |xg| && xg[log[k].bar]
      {
        if k < |prev.log| {
          assert log[k] == prev.log[k];
        } else {
          assert log[k] == s.entries[k - |prev.log|];
        }
      }
    }
  }

  /**
    When cash or shares is zero before bar `i`, the value recorded on bar `i`
    is that cash plus those shares at bar `i`'s close.
   */
  lemma {:induction false} ValueAt(bars: seq<Bar>, ma7: seq<Option<real>>, xg: seq<bool>, capital: real, i: nat)
    requires Aligned(bars, ma7, xg) && NoZeroClose(bars) && i < |bars|
    requires var a := RunUpTo(bars, ma7, xg, capital, i).account; a.cash == 0.0 || a.shares == 0.0
    ensures var a := RunUpTo(bars, ma7, xg, capital, i).account;
      RunUpTo(bars, ma7, xg, capital, i + 1).history[i] == Value(a, bars[i].close)
  {
    var a := RunUpTo(bars, ma7, xg, capital, i).account;
    var e := Step(a, i, bars[i], ma7[i], xg[i]).equity;
    assert RunUpTo(bars, ma7, xg, capital, i + 1).history[i] == e by {
      RunUpToNext(bars, ma7, xg, capital, i);
    }
    StepConservesValue(a, i, bars[i], ma7[i], xg[i]);
  }

  /** A bar that starts with no cash or no shares ends with no cash or no shares. */
  lemma {:induction false} StepOneSided(a: Account, i: nat, b: Bar, ma7: Option<real>, xg: bool)
    requires b.close != 0.0
    requires a.cash == 0.0 || a.shares == 0.0
    ensures var r := Step(a, i, b, ma7, xg).account; r.cash == 0.0 || r.shares == 0.0
  {
    var x := CheckExit(a, i, b, ma7);
    assert x.account.cash == 0.0 || x.account.shares == 0.0;
  }

  /**
    Whatever the capital, the loop never holds cash and shares at the same
    time: a sale empties the shares and a buy spends all the cash.
   */
  lemma {:induction false} NeverBoth(bars: seq<Bar>, ma7: seq<Option<real>>, xg: seq<bool>, capital: real, n: nat)
    requires Aligned(bars, ma7, xg) && NoZeroClose(bars) && n <= |bars|
    ensures var a := RunUpTo(bars, ma7, xg, capital, n).account; a.cash == 0.0 || a.shares == 0.0
    decreases n
  {
    if n > 0 {
      var prev := RunUpTo(bars, ma7, xg, capital, n - 1);
      NeverBoth(bars, ma7, xg, capital, n - 1);
      RunUpToNext(bars, ma7, xg, capital, n - 1);
      StepOneSided(prev.account, n - 1, bars[n - 1], ma7[n - 1], xg[n - 1]);
    }
  }

  /** The last recorded value is the final account marked at the last close. */
  lemma {:induction false} RunLastValue(bars: seq<Bar>, ma7: seq<Option<real>>, xg: seq<bool>, capital: real)
    requires Aligned(bars, ma7, xg) && NoZeroClose(bars) && |bars| > 0
    ensures var r := Run(bars, ma7, xg, capital);
      r.history[|bars| - 1] == Value(r.account, bars[|bars| - 1].close)
  {
    LastStepValue(bars, ma7, xg, capital, |bars| - 1);
  }

  /** After bar `n`, the value just recorded is the account marked at bar `n`'s close. */
  lemma {:induction false} LastStepValue(bars: seq<Bar>, ma7: seq<Option<real>>, xg: seq<bool>, capital: real, n: nat)
    requires Aligned(bars, ma7, xg) && NoZeroClose(bars) && n < |bars|
    ensures var r := RunUpTo(bars, ma7, xg, capital, n + 1);
      r.history[n] == Value(r.account, bars[n].close)
  {
    var prev := RunUpTo(bars, ma7, xg, capital, n);
    var s := Step(prev.account, n, bars[n], ma7[n], xg[n]);
    var r := RunUpTo(bars, ma7, xg, capital, n + 1);
    assert r.account == s.account && r.history[n] == s.equity by {
      RunUpToNext(bars, ma7, xg, capital, n);
    }
    StepEquity(prev.account, n, bars[n], ma7[n], xg[n]);
  }

  /**
    Without a single signal the loop never trades: the log stays empty, the
    account stays at its opening state and every recorded value is the
    capital.
   */
  lemma {:induction false} NoSignalRun(bars: seq<Bar>, ma7: seq<Option<real>>, xg: seq<bool>, capital: real, n: nat)
    requires Aligned(bars, ma7, xg) && NoZeroClose(bars) && n <= |bars|
    requires forall k :: 0 <= k < |xg| ==> !xg[k]
    ensures var r := RunUpTo(bars, ma7, xg, capital, n);
      r.log == [] && r.account == Opening(capital) && forall k :: 0 <= k < n ==> r.history[k] == capital
    decreases n
  {
    if n > 0 {
      NoSignalRun(bars, ma7, xg, capital, n - 1);
      var prev := RunUpTo(bars, ma7, xg, capital, n - 1);
      RunUpToNext(bars, ma7, xg, capital, n - 1);
      var s := Step(prev.account, n - 1, bars[n - 1], ma7[n - 1], xg[n - 1]);
      assert s.account == Opening(capital) && s.entries == [];
      assert s.equity == capital;
    }
  }

  /**
    The loop as written: a `for` over the bars that runs one iteration (the
    exit check, then the entry check, then the recorded value) on the
    running account and appends to `history` and `logs`. It computes exactly
    the fold `Run`.
   */
  method Simulate(bars: seq<Bar>, ma7: seq<Option<real>>, xg: seq<bool>, capital: real)
    returns (history: seq<real>, logs: seq<LogEntry>)
    requires Aligned(bars, ma7, xg) && NoZeroClose(bars)
    ensures |history| == |bars|
    ensures history == Run(bars, ma7, xg, capital).history
    ensures logs == Run(bars, ma7, xg, capital).log
  {
    var account := Opening(capital);
    history, logs := [], [];
    var i := 0;
    while i < |bars|
      invariant 0 <= i <= |bars|
      invariant RunUpTo(bars, ma7, xg, capital, i) == Outcome(account, history, logs)
    {
      var step := Step(account, i, bars[i], ma7[i], xg[i]);
      RunUpToNext(bars, ma7, xg, capital, i);
      account, history, logs := step.account, history + [step.equity], logs + step.entries;
      i := i + 1;
    }
  }
}

=== FILE: indicators.dfy ===
/**
  The indicator block of the strategy: the 7-bar average of the close, the
  5-bar average of the index close, and the momentum oscillator q2, all
  computed column-wise over a series of daily bars.
 */
module Indicators {
  import opened Maybe
  import opened Series

  /**
    One trading day after the data merge. `pctChg` is the day's percent change
    as delivered (or as derived by `PctChange`); `indexClose` is the same-day
    close of the reference index and is missing on dates the index series
    lacks (the merge is a left join with no forward fill).
   */
  datatype Bar = Bar(
    open: real,
    high: real,
    low: real,
    close: real,
    pctChg: Option<real>,
    indexClose: Option<real>
  )

  /** Window of the close's moving average. */
  const MaWindow: nat := 7
  /** Window of the index close's moving average. */
  const IndexMaWindow: nat := 5

  function Closes(bars: seq<Bar>): (r: seq<real>)
    ensures |r| == |bars|
    ensures forall i :: 0 <= i < |bars| ==> r[i] == bars[i].close
  {
    seq(|bars|, i requires 0 <= i < |bars| => bars[i].close)
  }

  function IndexCloses(bars: seq<Bar>): (r: seq<Option<real>>)
    ensures |r| == |bars|
    ensures forall i :: 0 <= i < |bars| ==> r[i] == bars[i].indexClose
  {
    seq(|bars|, i requires 0 <= i < |bars| => bars[i].indexClose)
  }

  function PctChgs(bars: seq<Bar>): (r: seq<Option<real>>)
    ensures |r| == |bars|
    ensures forall i :: 0 <= i < |bars| ==> r[i] == bars[i].pctChg
  {
    seq(|bars|, i requires 0 <= i < |bars| => bars[i].pctChg)
  }

  /** Summing a column without missing entries never yields a missing value. */
  lemma {:induction false} SumOptLift(xs: seq<real>)
    ensures SumOpt(Lift(xs)) == Some(Sum(xs))
    decreases |xs|
  {
    if |xs| > 0 {
      var init := xs[..|xs| - 1];
      SumOptLift(init);
      assert Lift(xs)[..|xs| - 1] == Lift(init);
    }
  }

  /**
    `close.rolling(7).mean()`: missing on the first six bars (a short window
    gives NaN, no partial average) and the mean of the last seven closes after.
   */
  function Ma7(bars: seq<Bar>): (r: seq<Option<real>>)
    ensures |r| == |bars|
    ensures forall i :: 0 <= i < |bars| ==> (r[i].Some? <==> MaWindow - 1 <= i)
    ensures forall i :: MaWindow - 1 <= i < |bars| ==>
      r[i] == Some(Sum(Closes(bars)[i + 1 - MaWindow .. i + 1]) / MaWindow as real)
  {
    var closes := Lift(Closes(bars));
    var r := seq(|bars|, i requires 0 <= i < |bars| => RollingMean(closes, MaWindow, i));
    assert forall i :: MaWindow - 1 <= i < |bars| ==>
      r[i] == Some(Sum(Closes(bars)[i + 1 - MaWindow .. i + 1]) / MaWindow as real) by {
      forall i | MaWindow - 1 <= i < |bars|
        ensures r[i] == Some(Sum(Closes(bars)[i + 1 - MaWindow .. i + 1]) / MaWindow as real)
      {
        var win := Closes(bars)[i + 1 - MaWindow .. i + 1];
        assert closes[i + 1 - MaWindow .. i + 1] == Lift(win);
        SumOptLift(win);
      }
    }
    r
  }

  /**
    `idx_c.rolling(5).mean()`: present exactly when the bar has four
    predecessors and none of the five index closes in the window is missing,
    and then five times it is the sum of those five index closes.
   */
  function IdxMa5(bars: seq<Bar>): (r: seq<Option<real>>)
    ensures |r| == |bars|
    ensures forall i :: 0 <= i < |bars| ==>
      (r[i].Some? <==> IndexMaWindow - 1 <= i && AllDefined(IndexCloses(bars)[i + 1 - IndexMaWindow .. i + 1]))
    ensures forall i :: 0 <= i < |bars| && r[i].Some? ==>
      r[i].value * IndexMaWindow as real == Sum(Values(IndexCloses(bars)[i + 1 - IndexMaWindow .. i + 1]))
  {
    seq(|bars|, i requires 0 <= i < |bars| => RollingMean(IndexCloses(bars), IndexMaWindow, i))
  }

  /** `close.diff()` without its leading NaN: `d[k]` is the change from bar `k` to bar `k + 1`. */
  function Diffs(closes: seq<real>): (r: seq<real>)
    requires |closes| > 0
    ensures |r| == |closes| - 1
    ensures forall k :: 0 <= k < |r| ==> r[k] + closes[k] == closes[k + 1]
  {
    seq(|closes| - 1, k requires 0 <= k < |closes| - 1 => closes[k + 1] - closes[k])
  }

  /** Twice-smoothed close-to-close change (`q_ema`), aligned with `Diffs`. */
  function SmoothedMove(closes: seq<real>): (r: seq<real>)
    requires |closes| > 0
    ensures |r| == |closes| - 1
  {
    Ema(Ema(Diffs(closes)))
  }

  /** Twice-smoothed absolute close-to-close change (`q_abs_ema`), aligned with `Diffs`. */
  function SmoothedRange(closes: seq<real>): (r: seq<real>)
    requires |closes| > 0
    ensures |r| == |closes| - 1
  {
    Ema(Ema(AbsAll(Diffs(closes))))
  }

  /**
    The momentum oscillator `q2 = 100 * q_ema / q_abs_ema`. Row 0 has no
    change and is missing; a later row is missing when the denominator is
    zero, which (see `SmoothedRangeZero`) makes the numerator zero too, so
    pandas' float division yields NaN there.
   */
  function Q2(closes: seq<real>): (r: seq<Option<real>>)
    ensures |r| == |closes|
    ensures |closes| > 0 ==> r[0] == None
    ensures forall i :: 0 < i < |closes| ==> (r[i].None? <==> FlatUpTo(closes, i))
    ensures forall i :: 0 <= i < |closes| && r[i].Some? ==> -100.0 <= r[i].value <= 100.0
  {
    if |closes| == 0 then []
    else
      var s2 := SmoothedMove(closes);
      var a2 := SmoothedRange(closes);
      OscillatorRows(closes);
      seq(|closes|, k requires 0 <= k < |closes| => if k == 0 then None else Percent(s2[k - 1], a2[k - 1]))
  }

  /** `100 * s / a`, missing when `a` is zero (where `s` is zero too: 0/0 is NaN). */
  function Percent(s: real, a: real): Option<real>
  {
    if a == 0.0 then None else Some(100.0 * s / a)
  }

  /** The smoothed change never exceeds the smoothed absolute change in magnitude. */
  lemma SmoothedMoveDominated(closes: seq<real>, k: nat)
    requires 0 < |closes| && k < |closes| - 1
    ensures Abs(SmoothedMove(closes)[k]) <= SmoothedRange(closes)[k]
  {
    var d := Diffs(closes);
    EmaDominated(d, AbsAll(d));
    EmaDominated(Ema(d), Ema(AbsAll(d)));
  }

  /** A run of equal values: every entry up to `n` equals the first. */
  predicate FlatUpTo(closes: seq<real>, n: nat)
    requires n < |closes|
  {
    forall j :: 0 <= j <= n ==> closes[j] == closes[0]
  }

  lemma {:induction false} FlatUpToSteps(closes: seq<real>, n: nat)
    requires n < |closes|
    ensures FlatUpTo(closes, n) <==> forall j :: 0 <= j < n ==> closes[j + 1] == closes[j]
    decreases n
  {
    if n > 0 {
      FlatUpToSteps(closes, n - 1);
      if FlatUpTo(closes, n - 1) {
        assert closes[n - 1] == closes[0];
      }
    }
  }

  /** The absolute changes up to row `k` are all zero exactly when bars `0 .. k + 1` share one close. */
  lemma AbsDiffsZero(closes: seq<real>, k: nat)
    requires 0 < |closes| && k < |closes| - 1
    ensures ZeroUpTo(AbsAll(Diffs(closes)), k) <==> FlatUpTo(closes, k + 1)
  {
    var d := Diffs(closes);
    var ad := AbsAll(d);
    FlatUpToSteps(closes, k + 1);
    assert forall j :: 0 <= j <= k ==> (ad[j] == 0.0 <==> closes[j + 1] == closes[j]);
  }

  /**
    The smoothed absolute change at row `k` is zero exactly when the close has
    not moved on bars `0 .. k + 1`.
   */
  lemma SmoothedRangeZero(closes: seq<real>, k: nat)
    requires 0 < |closes| && k < |closes| - 1
    ensures SmoothedRange(closes)[k] >= 0.0
    ensures SmoothedRange(closes)[k] == 0.0 <==> FlatUpTo(closes, k + 1)
  {
    DoubleEmaZeroAt(AbsAll(Diffs(closes)), k);
    AbsDiffsZero(closes, k);
  }

  /** A ratio of a value to a positive bound on its magnitude, in percent, lies in [-100, 100]. */
  lemma PercentOfBound(v: real, s: real, a: real)
    requires 0.0 < a && -a <= s <= a && v == 100.0 * s / a
    ensures -100.0 <= v <= 100.0
  {
    var q := s / a;
    assert s == q * a;
    assert 100.0 * s == (100.0 * q) * a;
  }

  /**
    On row `i > 0`, the oscillator is missing exactly on a flat prefix, and
    otherwise lies in [-100, 100].
   */
  lemma OscillatorRow(closes: seq<real>, i: nat)
    requires 0 < i < |closes|
    ensures Percent(SmoothedMove(closes)[i - 1], SmoothedRange(closes)[i - 1]).None? <==> FlatUpTo(closes, i)
    ensures Percent(SmoothedMove(closes)[i - 1], SmoothedRange(closes)[i - 1]).Some? ==>
      -100.0 <= Percent(SmoothedMove(closes)[i - 1], SmoothedRange(closes)[i - 1]).value <= 100.0
  {
    var s := SmoothedMove(closes)[i - 1];
    var a := SmoothedRange(closes)[i - 1];
    SmoothedRangeZero(closes, i - 1);
    if a != 0.0 {
      SmoothedBounds(closes, i - 1);
      PercentOfBound(100.0 * s / a, s, a);
    }
  }

  lemma OscillatorRows(closes: seq<real>)
    requires |closes| > 0
    ensures forall i :: 0 < i < |closes| ==>
      (Percent(SmoothedMove(closes)[i - 1], SmoothedRange(closes)[i - 1]).None? <==> FlatUpTo(closes, i)) &&
      (Percent(SmoothedMove(closes)[i - 1], SmoothedRange(closes)[i - 1]).Some? ==>
        -100.0 <= Percent(SmoothedMove(closes)[i - 1], SmoothedRange(closes)[i - 1]).value <= 100.0)
  {
    forall i | 0 < i < |closes| {
      OscillatorRow(closes, i);
    }
  }

  /** Row `i > 0` of the oscillator is the percent ratio of the two smoothed columns on that row. */
  lemma Q2IsPercent(closes: seq<real>, i: nat)
    requires 0 < i < |closes|
    ensures Q2(closes)[i] == Percent(SmoothedMove(closes)[i - 1], SmoothedRange(closes)[i - 1])
  {
  }

  /** `v` is `s` in percent of `a`, stated without division: `v * a == 100 * s`. */
  predicate IsPercent(v: real, s: real, a: real)
  {
    v * a == 100.0 * s
  }

  /** A present percent ratio is its numerator in percent of its denominator. */
  lemma PercentValue(s: real, a: real, v: real)
    requires Percent(s, a) == Some(v)
    ensures IsPercent(v, s, a)
  {
  }

  /**
    A present oscillator value on bar `i` is `100 * q_ema / q_abs_ema`: it
    times the smoothed absolute change is 100 times the smoothed change, and
    it is present exactly when the smoothed absolute change is non-zero.
   */
  lemma Q2Value(closes: seq<real>, i: nat)
    requires 0 < i < |closes|
    ensures Q2(closes)[i].Some? <==> SmoothedRange(closes)[i - 1] != 0.0
    ensures Q2(closes)[i].Some? ==>
      IsPercent(Q2(closes)[i].value, SmoothedMove(closes)[i - 1], SmoothedRange(closes)[i - 1])
  {
    Q2IsPercent(closes, i);
    if Q2(closes)[i].Some? {
      PercentValue(SmoothedMove(closes)[i - 1], SmoothedRange(closes)[i - 1], Q2(closes)[i].value);
    }
  }

  /** Where the smoothed absolute change is non-zero, it is positive and bounds the smoothed change. */
  lemma SmoothedBounds(closes: seq<real>, k: nat)
    requires 0 < |closes| && k < |closes| - 1 && SmoothedRange(closes)[k] != 0.0
    ensures 0.0 < SmoothedRange(closes)[k]
    ensures -SmoothedRange(closes)[k] <= SmoothedMove(closes)[k] <= SmoothedRange(closes)[k]
  {
    SmoothedMoveDominated(closes, k);
    SmoothedRangeZero(closes, k);
  }

  /**
    `close.pct_change() * 100`, the fallback when the data lacks a percent-change
    column: missing on bar 0, and on a later bar the change from the previous
    close in percent of it. Every close that serves as a divisor (all but the
    last) must be non-zero.
   */
  function PctChange(closes: seq<real>): (r: seq<Option<real>>)
    requires forall i :: 0 <= i < |closes| - 1 ==> closes[i] != 0.0
    ensures |r| == |closes|
    ensures |closes| > 0 ==> r[0] == None
    ensures forall k :: 0 < k < |closes| ==>
      r[k].Some? && r[k].value * closes[k - 1] == (closes[k] - closes[k - 1]) * 100.0
  {
    seq(|closes|, k requires 0 <= k < |closes| =>
      if k == 0 then None else Some((closes[k] / closes[k - 1] - 1.0) * 100.0))
  }

  /**
    With positive prices, the derived percent change on bar `i > 0` exceeds
    `t` exactly when the close rose by more than `t` percent over the prior close.
   */
  lemma PctChangeAbove(closes: seq<real>, i: nat, t: real)
    requires forall j :: 0 <= j < |closes| ==> closes[j] > 0.0
    requires 0 < i < |closes|
    ensures PctChange(closes)[i].Some?
    ensures PctChange(closes)[i].value > t <==> closes[i] > (1.0 + t / 100.0) * closes[i - 1]
  {
    var p := closes[i - 1];
    var q := closes[i];
    PercentAbove(q / p, t);
    RatioAbove(q, p, 1.0 + t / 100.0);
  }

  /** A ratio is more than `t` percent up exactly when it exceeds `1 + t / 100`. */
  lemma PercentAbove(r: real, t: real)
    ensures (r - 1.0) * 100.0 > t <==> r > 1.0 + t / 100.0
  {
  }

  /** Dividing by a positive number keeps a strict comparison. */
  lemma RatioAbove(q: real, p: real, m: real)
    requires p > 0.0
    ensures q / p > m <==> q > m * p
  {
    var r := q / p;
    assert r * p == q;
    if r > m {
      assert r * p > m * p;
    }
    if q > m * p {
      assert r * p > m * p;
    }
  }
}

=== FILE: maybe.dfy ===
/**
  Missing values.

  The strategy works on pandas columns of floats, where a value that cannot be
  computed (an incomplete rolling window, a date with no index quote, 0/0) is
  NaN. Here such a value is `None`, and every comparison that involves `None`
  is false, which is how a comparison with NaN behaves.
 */
module Maybe {

  datatype Option<+T> = None | Some(value: T)

  /** `a > b` on possibly-missing values (false when either is missing). */
  predicate Gt(a: Option<real>, b: Option<real>)
  {
    a.Some? && b.Some? && a.value > b.value
  }

  /** `a < b` on possibly-missing values (false when either is missing). */
  predicate Lt(a: Option<real>, b: Option<real>)
  {
    a.Some? && b.Some? && a.value < b.value
  }

  /** Every entry of `xs` is present. */
  predicate AllDefined(xs: seq<Option<real>>)
  {
    forall k :: 0 <= k < |xs| ==> xs[k].Some?
  }

  /** A column of floats with no missing entries, seen as a column of optional values. */
  function Lift(xs: seq<real>): (r: seq<Option<real>>)
    ensures |r| == |xs|
    ensures forall k :: 0 <= k < |xs| ==> r[k] == Some(xs[k])
  {
    seq(|xs|, k requires 0 <= k < |xs| => Some(xs[k]))
  }

  /** The floats of a column of optional values that has no missing entry; the inverse of `Lift`. */
  function Values(xs: seq<Option<real>>): (r: seq<real>)
    requires AllDefined(xs)
    ensures |r| == |xs|
    ensures forall k :: 0 <= k < |xs| ==> xs[k] == Some(r[k])
  {
    seq(|xs|, k requires 0 <= k < |xs| => xs[k].value)
  }
}

=== FILE: metrics.dfy ===
/**
  The three figures the strategy reports after the loop: the last recorded
  account value, the cumulative return on the starting capital in percent,
  and the number of signal bars.
 */
module Metrics {
  import opened Maybe

  /** What the result panel shows. */
  datatype Summary = Summary(finalValue: real, returnPct: Option<real>, signalCount: nat)

  /** Number of bars on which the signal holds (`len(df[df['xg']])`). */
  function CountSignals(xg: seq<bool>): (r: nat)
    ensures r <= |xg|
    ensures r == 0 <==> forall k :: 0 <= k < |xg| ==> !xg[k]
    ensures r == |xg| <==> forall k :: 0 <= k < |xg| ==> xg[k]
    decreases |xg|
  {
    if |xg| == 0 then 0
    else CountSignals(xg[..|xg| - 1]) + (if xg[|xg| - 1] then 1 else 0)
  }

  /** The signal bars, as a set of bar indices. */
  function SignalBars(xg: seq<bool>): set<nat>
  {
    set k: nat | k < |xg| && xg[k]
  }

  /** The count is the number of distinct signal bars. */
  lemma {:induction false} CountSignalsIsCardinality(xg: seq<bool>)
    ensures CountSignals(xg) == |SignalBars(xg)|
    decreases |xg|
  {
    if |xg| > 0 {
      var init := xg[..|xg| - 1];
      CountSignalsIsCardinality(init);
      var last: nat := |xg| - 1;
      if xg[last] {
        assert SignalBars(xg) == SignalBars(init) + {last};
        assert last !in SignalBars(init);
      }
      else {
        assert SignalBars(xg) == SignalBars(init);
      }
    }
  }

  /**
    `(final - capital) / capital * 100`. With a zero capital the float
    division has no finite value (the panel shows an infinity or not a
    number), which is `None` here.
   */
  function ReturnPct(finalValue: real, capital: real): (r: Option<real>)
    ensures r.None? <==> capital == 0.0
    ensures r.Some? ==> r.value * capital == (finalValue - capital) * 100.0
  {
    if capital == 0.0 then None else Some((finalValue - capital) / capital * 100.0)
  }

  /** With a positive capital the return is positive, zero or negative exactly as the final value is above, at or below it. */
  lemma ReturnSign(finalValue: real, capital: real)
    requires capital > 0.0
    ensures ReturnPct(finalValue, capital).Some?
    ensures ReturnPct(finalValue, capital).value > 0.0 <==> finalValue > capital
    ensures ReturnPct(finalValue, capital).value == 0.0 <==> finalValue == capital
    ensures ReturnPct(finalValue, capital).value < 0.0 <==> finalValue < capital
  {
    var q := (finalValue - capital) / capital;
    assert q * capital == finalValue - capital;
    if q > 0.0 {
      assert q * capital > 0.0;
    }
    if q < 0.0 {
      assert q * capital < 0.0;
    }
  }

  /**
    The panel for a run with at least one bar (a download without rows never
    reaches the loop): the last recorded value, the return on it and the
    signal count.
   */
  function Summarize(history: seq<real>, xg: seq<bool>, capital: real): (r: Summary)
    requires |history| > 0
    ensures r.finalValue == history[|history| - 1]
    ensures r.returnPct == ReturnPct(history[|history| - 1], capital)
    ensures r.signalCount == |SignalBars(xg)|
  {
    CountSignalsIsCardinality(xg);
    var last := history[|history| - 1];
    Summary(last, ReturnPct(last, capital), CountSignals(xg))
  }
}

=== FILE: scenarios.dfy ===
/**
  Concrete runs of the trading loop, worked out by the verifier.
 */
module Scenarios {
  import opened Maybe
  import opened Indicators
  import opened Backtest
  import opened TradeLog
  import opened Metrics

  /** A bar with the given low and close, no percent change and no index close. */
  function Day(low: real, close: real): Bar
  {
    Bar(close, close, low, close, None, None)
  }

  /**
    Buy at 10 on a signal, sell at 12 on the next bar because the close is
    below `ma7`: 100000 becomes 120000, a 20% return.
   */
  lemma RoundTripExample()
    ensures var bars := [Day(9.5, 10.0), Day(11.0, 12.0)];
      var r := Run(bars, [None, Some(13.0)], [true, false], 100000.0);
      && r.log == [LogEntry(0, Buy, 10.0), LogEntry(1, Sell, 12.0)]
      && r.history == [100000.0, 120000.0]
      && ReturnPct(r.history[1], 100000.0) == Some(20.0)
  {
    var bars := [Day(9.5, 10.0), Day(11.0, 12.0)];
    var ma7 := [None, Some(13.0)];
    var xg := [true, false];
    var r0 := RunUpTo(bars, ma7, xg, 100000.0, 0);
    RunUpToNext(bars, ma7, xg, 100000.0, 0);
    var r1 := RunUpTo(bars, ma7, xg, 100000.0, 1);
    assert r1.account == Account(0.0, 10000.0, 9.5);
    assert r1.log == [LogEntry(0, Buy, 10.0)];
    assert r1.history == [100000.0];
    RunUpToNext(bars, ma7, xg, 100000.0, 1);
    var r2 := RunUpTo(bars, ma7, xg, 100000.0, 2);
    assert r2.account == Account(120000.0, 0.0, 9.5);
    assert r2.log == [LogEntry(0, Buy, 10.0), LogEntry(1, Sell, 12.0)];
    assert r2.history == [100000.0, 120000.0];
  }

  /**
    The same two bars with a signal on both: bar 1 sells at 12 because the
    close is below `ma7`, and the entry check, run on the account the sale
    leaves, buys back at 12 on the same bar with the stop at its low.
   */
  lemma SameBarReentryExample()
    ensures var bars := [Day(9.5, 10.0), Day(11.0, 12.0)];
      var r := Run(bars, [None, Some(13.0)], [true, true], 100000.0);
      && r.log == [LogEntry(0, Buy, 10.0), LogEntry(1, Sell, 12.0), LogEntry(1, Buy, 12.0)]
      && r.history == [100000.0, 120000.0]
      && r.account == Account(0.0, 10000.0, 11.0)
  {
    var bars := [Day(9.5, 10.0), Day(11.0, 12.0)];
    var ma7 := [None, Some(13.0)];
    var xg := [true, true];
    RunUpToNext(bars, ma7, xg, 100000.0, 0);
    var r1 := RunUpTo(bars, ma7, xg, 100000.0, 1);
    assert r1.account == Account(0.0, 10000.0, 9.5);
    assert r1.log == [LogEntry(0, Buy, 10.0)];
    assert r1.history == [100000.0];
    RunUpToNext(bars, ma7, xg, 100000.0, 1);
    var r2 := RunUpTo(bars, ma7, xg, 100000.0, 2);
    assert r2.account == Account(0.0, 10000.0, 11.0);
    assert r2.log == [LogEntry(0, Buy, 10.0), LogEntry(1, Sell, 12.0), LogEntry(1, Buy, 12.0)];
    assert r2.history == [100000.0, 120000.0];
  }

  /**
    A position still open at the end is marked at the last close: bought at
    10, the series ends at 11 and the final value is 110000 with one buy in
    the log.
   */
  lemma OpenPositionExample()
    ensures var bars := [Day(9.5, 10.0), Day(10.5, 11.0)];
      var r := Run(bars, [None, None], [true, false], 100000.0);
      && r.log == [LogEntry(0, Buy, 10.0)]
      && r.history == [100000.0, 110000.0]
  {
    var bars := [Day(9.5, 10.0), Day(10.5, 11.0)];
    var ma7: seq<Option<real>> := [None, None];
    var xg := [true, false];
    RunUpToNext(bars, ma7, xg, 100000.0, 0);
    var r1 := RunUpTo(bars, ma7, xg, 100000.0, 1);
    assert r1.account == Account(0.0, 10000.0, 9.5);
    assert r1.log == [LogEntry(0, Buy, 10.0)];
    RunUpToNext(bars, ma7, xg, 100000.0, 1);
    var r2 := RunUpTo(bars, ma7, xg, 100000.0, 2);
    assert r2.account == r1.account;
    assert r2.history == [100000.0, 110000.0];
  }

  /**
    With a zero capital the buy leaves zero shares, so the entry check fires
    again on the next signal bar: two buys in a row, no sell.
   */
  lemma ZeroCapitalExample()
    ensures var bars := [Day(9.5, 10.0), Day(10.5, 11.0)];
      Run(bars, [None, None], [true, true], 0.0).log == [LogEntry(0, Buy, 10.0), LogEntry(1, Buy, 11.0)]
  {
    var bars := [Day(9.5, 10.0), Day(10.5, 11.0)];
    var ma7: seq<Option<real>> := [None, None];
    var xg := [true, true];
    var r1 := RunUpTo(bars, ma7, xg, 0.0, 1);
    ZeroCapitalFirstBar();
    var s1 := Step(r1.account, 1, bars[1], ma7[1], xg[1]);
    assert s1.entries == [LogEntry(1, Buy, 11.0)];
    assert Run(bars, ma7, xg, 0.0).log == r1.log + s1.entries by {
      RunUpToNext(bars, ma7, xg, 0.0, 1);
    }
  }

  /** The first bar of the zero-capital run: a buy of zero shares. */
  lemma ZeroCapitalFirstBar()
    ensures var bars := [Day(9.5, 10.0), Day(10.5, 11.0)];
      var r := RunUpTo(bars, [None, None], [true, true], 0.0, 1);
      r.account == Account(0.0, 0.0, 9.5) && r.log == [LogEntry(0, Buy, 10.0)]
  {
    var bars := [Day(9.5, 10.0), Day(10.5, 11.0)];
    var ma7: seq<Option<real>> := [None, None];
    var xg := [true, true];
    RunUpToNext(bars, ma7, xg, 0.0, 0);
  }

  /** A log whose second line is a buy does not alternate. */
  lemma SecondBuyNotAlternating(log: seq<LogEntry>)
    requires |log| > 1 && log[1].action == Buy
    ensures !Alternating(log)
  {
    assert log[1].action != (if 1 % 2 == 0 then Buy else Sell);
  }

  /** So the alternation of the log needs a positive capital. */
  lemma ZeroCapitalBreaksAlternation()
    ensures var bars := [Day(9.5, 10.0), Day(10.5, 11.0)];
      !Alternating(Run(bars, [None, None], [true, true], 0.0).log)
  {
    ZeroCapitalExample();
    var bars := [Day(9.5, 10.0), Day(10.5, 11.0)];
    SecondBuyNotAlternating(Run(bars, [None, None], [true, true], 0.0).log);
  }
}

=== FILE: series.dfy ===
/**
  Column operations used by the indicator block: windowed sums, means and
  maxima with pandas' default `min_periods` (a window yields a value only when
  it is full and holds no missing entry), and the exponential moving average
  `ewm(span = 6, adjust = False).mean()`.
 */
module Series {
  import opened Maybe

  /** Sum of a column; the empty sum is zero. */
  function Sum(xs: seq<real>): real
    decreases |xs|
  {
    if |xs| == 0 then 0.0 else Sum(xs[..|xs| - 1]) + xs[|xs| - 1]
  }

  /** Sum of a column of optional values: missing as soon as one entry is. */
  function SumOpt(xs: seq<Option<real>>): (r: Option<real>)
    ensures r.Some? <==> AllDefined(xs)
    decreases |xs|
  {
    if |xs| == 0 then Some(0.0)
    else
      var last := xs[|xs| - 1];
      match SumOpt(xs[..|xs| - 1])
      case None => None
      case Some(s) => if last.None? then None else Some(s + last.value)
  }

  /** A column without missing entries sums to the plain sum of its values. */
  lemma {:induction false} SumOptValues(xs: seq<Option<real>>)
    requires AllDefined(xs)
    ensures SumOpt(xs) == Some(Sum(Values(xs)))
    decreases |xs|
  {
    if |xs| > 0 {
      var init := xs[..|xs| - 1];
      SumOptValues(init);
      assert Values(xs)[..|xs| - 1] == Values(init);
    }
  }

  /** A column of `n` entries that all equal `c` sums to `n * c`. */
  lemma {:induction false} SumConstant(xs: seq<real>, n: nat, c: real)
    requires |xs| == n
    requires forall k :: 0 <= k < n ==> xs[k] == c
    ensures Sum(xs) == n as real * c
    decreases n
  {
    if n > 0 {
      SumConstant(xs[..n - 1], n - 1, c);
    }
  }

  /** A window whose entries all equal `c` sums to `|xs| * c`. */
  lemma SumOptConstant(xs: seq<Option<real>>, c: real)
    requires forall k :: 0 <= k < |xs| ==> xs[k] == Some(c)
    ensures SumOpt(xs) == Some(|xs| as real * c)
  {
    assert AllDefined(xs);
    SumOptValues(xs);
    var vs := Values(xs);
    SumConstant(vs, |xs|, c);
    assert SumOpt(xs) == Some(Sum(vs));
    assert Sum(vs) == |xs| as real * c;
  }

  /**
    `rolling(w).mean()` at row `i`: the mean of rows `i-w+1 .. i`, defined only
    when that window lies inside the column and holds no missing entry.
   */
  function RollingMean(xs: seq<Option<real>>, w: nat, i: nat): (r: Option<real>)
    requires 0 < w && i < |xs|
    ensures r.Some? <==> w <= i + 1 && AllDefined(xs[i + 1 - w .. i + 1])
    ensures r.Some? ==> r.value * w as real == Sum(Values(xs[i + 1 - w .. i + 1]))
  {
    if i + 1 < w then None
    else
      var win := xs[i + 1 - w .. i + 1];
      match SumOpt(win)
      case None => None
      case Some(s) => SumOptValues(win); Some(s / w as real)
  }

  /** The rolling mean of a constant window is that constant. */
  lemma RollingMeanConstant(xs: seq<Option<real>>, w: nat, i: nat, c: real)
    requires 0 < w && w <= i + 1 && i < |xs|
    requires forall k :: i + 1 - w <= k <= i ==> xs[k] == Some(c)
    ensures RollingMean(xs, w, i) == Some(c)
  {
    var win := xs[i + 1 - w .. i + 1];
    assert forall k :: 0 <= k < |win| ==> win[k] == xs[i + 1 - w + k];
    SumOptConstant(win, c);
    var s := SumOpt(win).value;
    assert s == w as real * c;
    assert s / w as real == c;
  }

  /** Largest entry of a non-empty column of optional values; missing as soon as one entry is. */
  function MaxOpt(xs: seq<Option<real>>): (r: Option<real>)
    requires |xs| > 0
    ensures r.Some? <==> AllDefined(xs)
    ensures r.Some? ==> forall k :: 0 <= k < |xs| ==> xs[k].Some? && xs[k].value <= r.value
    ensures r.Some? ==> exists k :: 0 <= k < |xs| && xs[k] == r
    decreases |xs|
  {
    var last := xs[|xs| - 1];
    if |xs| == 1 then last
    else
      match MaxOpt(xs[..|xs| - 1])
      case None => None
      case Some(m) =>
        match last
        case None => None
        case Some(v) => Some(if v > m then v else m)
  }

  /** `rolling(w).max()` at row `i`, with the same window rule as `RollingMean`. */
  function RollingMax(xs: seq<Option<real>>, w: nat, i: nat): (r: Option<real>)
    requires 0 < w && i < |xs|
    ensures r.Some? <==> w <= i + 1 && AllDefined(xs[i + 1 - w .. i + 1])
  {
    if i + 1 < w then None else MaxOpt(xs[i + 1 - w .. i + 1])
  }

  /** The largest entry of a column without missing entries exceeds `t` exactly when some entry does. */
  lemma MaxOptAbove(xs: seq<Option<real>>, t: real)
    requires |xs| > 0 && AllDefined(xs)
    ensures MaxOpt(xs).value > t <==> exists k :: 0 <= k < |xs| && xs[k].value > t
  {
    var m := MaxOpt(xs);
    if m.value > t {
      var j :| 0 <= j < |xs| && xs[j] == m;
      assert xs[j].value > t;
    }
  }

  /** Some entry of the slice `xs[lo..hi]` exceeds `t` exactly when some row `lo <= k < hi` does. */
  lemma SliceAbove(xs: seq<Option<real>>, lo: nat, hi: nat, t: real)
    requires lo <= hi <= |xs| && AllDefined(xs[lo .. hi])
    ensures (exists j :: 0 <= j < hi - lo && xs[lo .. hi][j].value > t) <==>
      (exists k :: lo <= k < hi && xs[k].value > t)
  {
    var win := xs[lo .. hi];
    if exists j :: 0 <= j < hi - lo && win[j].value > t {
      var j :| 0 <= j < hi - lo && win[j].value > t;
      assert xs[lo + j] == win[j];
    }
    if exists k :: lo <= k < hi && xs[k].value > t {
      var k :| lo <= k < hi && xs[k].value > t;
      assert win[k - lo] == xs[k];
    }
  }

  /**
    The rolling maximum exceeds `t` exactly when the window is complete and
    some row inside it exceeds `t`.
   */
  lemma RollingMaxAbove(xs: seq<Option<real>>, w: nat, i: nat, t: real)
    requires 0 < w && i < |xs|
    ensures Gt(RollingMax(xs, w, i), Some(t)) <==>
      w <= i + 1 && AllDefined(xs[i + 1 - w .. i + 1]) &&
      exists k :: i + 1 - w <= k <= i && xs[k].value > t
  {
    if w <= i + 1 && AllDefined(xs[i + 1 - w .. i + 1]) {
      MaxOptAbove(xs[i + 1 - w .. i + 1], t);
      SliceAbove(xs, i + 1 - w, i + 1, t);
    }
  }

  /** Decay factor of `ewm(span = 6)`: 2 / (span + 1) = 2/7. */
  const Alpha: real := 2.0 / 7.0

  /**
    Row `k` of `ewm(span = 6, adjust = False).mean()` over a column without
    missing entries: the first output is the first input, and every later
    output moves the previous one a fraction `Alpha` of the way towards the
    new input.
   */
  function EmaAt(xs: seq<real>, k: nat): real
    requires k < |xs|
    decreases k
  {
    if k == 0 then xs[0] else (1.0 - Alpha) * EmaAt(xs, k - 1) + Alpha * xs[k]
  }

  /** The whole smoothed column. */
  function Ema(xs: seq<real>): (r: seq<real>)
    ensures |r| == |xs|
  {
    seq(|xs|, k requires 0 <= k < |xs| => EmaAt(xs, k))
  }

  /** The recurrence `y[k] = (1 - Alpha) * y[k - 1] + Alpha * x[k]` on every row after the first. */
  lemma EmaStep(xs: seq<real>, k: nat)
    requires 0 < k < |xs|
    ensures Ema(xs)[k] == (1.0 - Alpha) * Ema(xs)[k - 1] + Alpha * xs[k]
  {
  }

  /** `base` raised to the power `n`. */
  function Pow(base: real, n: nat): real
    decreases n
  {
    if n == 0 then 1.0 else base * Pow(base, n - 1)
  }

  /**
    The weight of input `j` in output `k` of the unadjusted average: the seed
    `x[0]` keeps `(1 - Alpha)^k`, and a later input `j` keeps
    `Alpha * (1 - Alpha)^(k - j)`.
   */
  function Weight(k: nat, j: nat): real
    requires j <= k
  {
    if j == 0 then Pow(1.0 - Alpha, k) else Alpha * Pow(1.0 - Alpha, k - j)
  }

  /** Inputs `0 .. m` weighted as they are in output `k`. */
  function WeightedSum(xs: seq<real>, k: nat, m: nat): real
    requires m <= k < |xs|
    decreases m
  {
    if m == 0 then Weight(k, 0) * xs[0] else WeightedSum(xs, k, m - 1) + Weight(k, m) * xs[m]
  }

  /** One row later, the weight of an old input has decayed by `1 - Alpha`. */
  lemma WeightDecays(k: nat, j: nat)
    requires j < k
    ensures Weight(k, j) == (1.0 - Alpha) * Weight(k - 1, j)
  {
    assert Pow(1.0 - Alpha, k - j) == (1.0 - Alpha) * Pow(1.0 - Alpha, k - 1 - j);
  }

  /** One row later, the whole weighted sum of the old inputs has decayed by `1 - Alpha`. */
  lemma {:induction false} WeightedSumDecays(xs: seq<real>, k: nat, m: nat)
    requires m < k < |xs|
    ensures WeightedSum(xs, k, m) == (1.0 - Alpha) * WeightedSum(xs, k - 1, m)
    decreases m
  {
    var w := Weight(k - 1, m);
    WeightDecays(k, m);
    assert Weight(k, m) * xs[m] == (1.0 - Alpha) * (w * xs[m]);
    if m > 0 {
      WeightedSumDecays(xs, k, m - 1);
    }
  }

  /**
    The closed form of `ewm(span = 6, adjust = False)`: output `k` is the
    weighted sum of inputs `0 .. k`, the seed with weight `(1 - Alpha)^k` and
    input `j > 0` with weight `Alpha * (1 - Alpha)^(k - j)`.
   */
  lemma {:induction false} EmaClosedForm(xs: seq<real>, k: nat)
    requires k < |xs|
    ensures Ema(xs)[k] == WeightedSum(xs, k, k)
    decreases k
  {
    if k > 0 {
      EmaClosedForm(xs, k - 1);
      WeightedSumDecays(xs, k, k - 1);
      EmaStep(xs, k);
      assert Weight(k, k) == Alpha;
    }
  }

  /**
    The smoothing as a running computation: the column is extended one row
    at a time, each new row blending the last output with the new input.
   */
  function EmaStream(xs: seq<real>): (r: seq<real>)
    ensures |r| == |xs|
    decreases |xs|
  {
    if |xs| == 0 then []
    else
      var p := EmaStream(xs[..|xs| - 1]);
      p + [if |p| == 0 then xs[0] else (1.0 - Alpha) * p[|p| - 1] + Alpha * xs[|xs| - 1]]
  }

  /** Row `k` of the smoothing depends only on rows `0 .. k` (no look-ahead). */
  lemma {:induction false} EmaAtPrefix(xs: seq<real>, n: nat, k: nat)
    requires k < n <= |xs|
    ensures EmaAt(xs[..n], k) == EmaAt(xs, k)
    decreases k
  {
    if k > 0 {
      EmaAtPrefix(xs, n, k - 1);
    }
  }

  /** The running computation produces the smoothed column row for row. */
  lemma {:induction false} EmaStreamAgrees(xs: seq<real>)
    ensures EmaStream(xs) == Ema(xs)
    decreases |xs|
  {
    if |xs| > 0 {
      var n := |xs| - 1;
      var init := xs[..n];
      EmaStreamAgrees(init);
      forall k | 0 <= k < n
        ensures EmaStream(xs)[k] == Ema(xs)[k]
      {
        EmaAtPrefix(xs, n, k);
      }
      if n > 0 {
        EmaAtPrefix(xs, n, n - 1);
      }
    }
  }

  /** The smoothed column of a prefix is the prefix of the smoothed column. */
  lemma EmaCausal(xs: seq<real>, n: nat)
    requires n <= |xs|
    ensures Ema(xs[..n]) == Ema(xs)[..n]
  {
    forall k | 0 <= k < n
      ensures Ema(xs[..n])[k] == Ema(xs)[k]
    {
      EmaAtPrefix(xs, n, k);
    }
  }

  function Abs(x: real): real
  {
    if x < 0.0 then -x else x
  }

  /** Entry-wise absolute value of a column. */
  function AbsAll(xs: seq<real>): (r: seq<real>)
    ensures |r| == |xs|
    ensures forall k :: 0 <= k < |xs| ==> r[k] == Abs(xs[k])
  {
    seq(|xs|, k requires 0 <= k < |xs| => Abs(xs[k]))
  }

  /**
    Averaging shrinks magnitudes: if every `|xs[k]|` is at most `ys[k]`, then
    the average of `xs` is at most the average of `ys` in magnitude, row by row.
   */
  lemma {:induction false} EmaDominatedAt(xs: seq<real>, ys: seq<real>, k: nat)
    requires |xs| == |ys| && k < |xs|
    requires forall j :: 0 <= j < |xs| ==> Abs(xs[j]) <= ys[j]
    ensures Abs(Ema(xs)[k]) <= Ema(ys)[k]
    decreases k
  {
    if k > 0 {
      EmaDominatedAt(xs, ys, k - 1);
      EmaStep(xs, k);
      EmaStep(ys, k);
    }
  }

  lemma EmaDominated(xs: seq<real>, ys: seq<real>)
    requires |xs| == |ys|
    requires forall j :: 0 <= j < |xs| ==> Abs(xs[j]) <= ys[j]
    ensures forall k :: 0 <= k < |xs| ==> Abs(Ema(xs)[k]) <= Ema(ys)[k]
  {
    forall k | 0 <= k < |xs| {
      EmaDominatedAt(xs, ys, k);
    }
  }

  /** Every entry up to row `k` is zero. */
  predicate ZeroUpTo(xs: seq<real>, k: nat)
    requires k < |xs|
  {
    forall j :: 0 <= j <= k ==> xs[j] == 0.0
  }

  /**
    The average of a non-negative column is non-negative, and it is zero at
    row `k` exactly when every input up to row `k` is zero.
   */
  lemma {:induction false} EmaZeroAt(xs: seq<real>, k: nat)
    requires k < |xs|
    requires forall j :: 0 <= j < |xs| ==> xs[j] >= 0.0
    ensures Ema(xs)[k] >= 0.0
    ensures Ema(xs)[k] == 0.0 <==> ZeroUpTo(xs, k)
    decreases k
  {
    if k > 0 {
      EmaZeroAt(xs, k - 1);
      EmaStep(xs, k);
    }
  }

  lemma EmaNonNegative(xs: seq<real>)
    requires forall j :: 0 <= j < |xs| ==> xs[j] >= 0.0
    ensures forall k :: 0 <= k < |xs| ==> Ema(xs)[k] >= 0.0
  {
    forall k | 0 <= k < |xs| ensures Ema(xs)[k] >= 0.0 {
      EmaZeroAt(xs, k);
    }
  }

  /** Applying the average twice keeps the zero characterisation of `EmaZeroAt`. */
  lemma DoubleEmaZeroAt(xs: seq<real>, k: nat)
    requires k < |xs|
    requires forall j :: 0 <= j < |xs| ==> xs[j] >= 0.0
    ensures Ema(Ema(xs))[k] >= 0.0
    ensures Ema(Ema(xs))[k] == 0.0 <==> ZeroUpTo(xs, k)
  {
    var e := Ema(xs);
    EmaNonNegative(xs);
    EmaZeroAt(e, k);
    EmaZeroAt(xs, k);
    if ZeroUpTo(xs, k) {
      forall j | 0 <= j <= k ensures e[j] == 0.0 {
        EmaZeroAt(xs, j);
      }
    }
  }
}

=== FILE: signal.dfy ===
/**
  The entry signal `xg`: a per-bar conjunction of seven comparisons over the
  bar series and its indicators. A comparison that touches a missing value is
  false, so the signal is false wherever an input it needs is missing.
 */
module Signal {
  import opened Maybe
  import opened Series
  import opened Indicators

  /** Trailing window, in bars, searched for a near limit-up day. */
  const LimitUpWindow: nat := 30
  /** Percent change that counts as a near limit-up day (strictly above). */
  const LimitUpPct: real := 9.5
  /** The oscillator must be strictly above this floor. */
  const MomentumFloor: real := -20.0
  /** Largest allowed distance of the close above `ma7`, in percent. */
  const MaxExtensionPct: real := 3.0

  /** Condition 1: the index close is above its own 5-bar average. */
  predicate IndexAboveTrend(bars: seq<Bar>, i: nat)
    requires i < |bars|
  {
    Gt(bars[i].indexClose, IdxMa5(bars)[i])
  }

  /** Condition 2: the 30-bar trailing maximum of the percent change is above 9.5. */
  predicate RecentLimitUp(bars: seq<Bar>, i: nat)
    requires i < |bars|
  {
    Gt(RollingMax(PctChgs(bars), LimitUpWindow, i), Some(LimitUpPct))
  }

  /** Condition 3: the oscillator is above its value on the previous bar (`shift(1)` is missing on bar 0). */
  predicate MomentumRising(q2: seq<Option<real>>, i: nat)
    requires i < |q2|
  {
    i > 0 && Gt(q2[i], q2[i - 1])
  }

  /** Condition 4: the oscillator is above -20. */
  predicate MomentumAboveFloor(q2: seq<Option<real>>, i: nat)
    requires i < |q2|
  {
    Gt(q2[i], Some(MomentumFloor))
  }

  /** Condition 5: `ma7` is above its value on the previous bar. */
  predicate TrendRising(ma7: seq<Option<real>>, i: nat)
    requires i < |ma7|
  {
    i > 0 && Gt(ma7[i], ma7[i - 1])
  }

  /** Condition 6: the close breaks the previous bar's high. */
  predicate Breakout(bars: seq<Bar>, i: nat)
    requires i < |bars|
  {
    i > 0 && bars[i].close > bars[i - 1].high
  }

  /**
    Condition 7: `(close - ma7) / ma7 * 100 <= 3`. A missing `ma7` makes it
    false; so does `ma7 == 0`, which positive prices rule out.
   */
  predicate NotExtended(bars: seq<Bar>, ma7: seq<Option<real>>, i: nat)
    requires i < |bars| && i < |ma7|
  {
    ma7[i].Some? && ma7[i].value != 0.0 &&
    (bars[i].close - ma7[i].value) / ma7[i].value * 100.0 <= MaxExtensionPct
  }

  /**
    The entry signal on bar `i`. Whenever it holds, every input it compares is
    present; in particular it never holds on the first 29 bars, whose 30-bar
    window is incomplete.
   */
  function XgAt(bars: seq<Bar>, i: nat): (r: bool)
    requires i < |bars|
    ensures r ==> LimitUpWindow - 1 <= i
    ensures r ==> AllDefined(PctChgs(bars)[i + 1 - LimitUpWindow .. i + 1])
    ensures r ==> bars[i].indexClose.Some? && IdxMa5(bars)[i].Some?
    ensures r ==> Ma7(bars)[i].Some? && Ma7(bars)[i - 1].Some?
    ensures r ==> Q2(Closes(bars))[i].Some? && Q2(Closes(bars))[i - 1].Some?
  {
    var ma7 := Ma7(bars);
    var q2 := Q2(Closes(bars));
    && IndexAboveTrend(bars, i)
    && RecentLimitUp(bars, i)
    && MomentumRising(q2, i)
    && MomentumAboveFloor(q2, i)
    && TrendRising(ma7, i)
    && Breakout(bars, i)
    && NotExtended(bars, ma7, i)
  }

  /** The `xg` column. */
  function Xg(bars: seq<Bar>): (r: seq<bool>)
    ensures |r| == |bars|
    ensures forall i :: 0 <= i < |bars| ==> r[i] == XgAt(bars, i)
  {
    seq(|bars|, i requires 0 <= i < |bars| => XgAt(bars, i))
  }

  /** A series shorter than the 30-bar window never signals. */
  lemma ShortSeriesNoSignal(bars: seq<Bar>)
    requires |bars| < LimitUpWindow
    ensures forall i :: 0 <= i < |bars| ==> !Xg(bars)[i]
  {
  }

  /**
    Condition 2 in plain terms: the 30 bars ending at `i` all carry a percent
    change and at least one of them is above 9.5.
   */
  lemma RecentLimitUpIff(bars: seq<Bar>, i: nat)
    requires i < |bars|
    ensures RecentLimitUp(bars, i) <==>
      LimitUpWindow - 1 <= i && AllDefined(PctChgs(bars)[i + 1 - LimitUpWindow .. i + 1]) &&
      exists k :: i + 1 - LimitUpWindow <= k <= i && bars[k].pctChg.value > LimitUpPct
  {
    RollingMaxAbove(PctChgs(bars), LimitUpWindow, i, LimitUpPct);
  }

  /** Without a near limit-up day among the last 30 bars there is no signal. */
  lemma NoLimitUpNoSignal(bars: seq<Bar>, i: nat)
    requires i < |bars|
    requires forall k :: 0 <= k && i + 1 - LimitUpWindow <= k <= i && bars[k].pctChg.Some? ==> bars[k].pctChg.value <= LimitUpPct
    ensures !XgAt(bars, i)
  {
    assert !RecentLimitUp(bars, i) by {
      RecentLimitUpIff(bars, i);
    }
  }

  /**
    If the index closed at the same level on the five bars ending at `i`, its
    average equals the close and the strict comparison of condition 1 fails.
   */
  lemma FlatIndexNoSignal(bars: seq<Bar>, i: nat, c: real)
    requires i < |bars|
    requires forall k :: 0 <= k && i + 1 - IndexMaWindow <= k <= i ==> bars[k].indexClose == Some(c)
    ensures !XgAt(bars, i)
  {
    if IndexMaWindow <= i + 1 {
      RollingMeanConstant(IndexCloses(bars), IndexMaWindow, i, c);
      assert IdxMa5(bars)[i] == Some(c);
    }
  }

  /** A constant index close rules out every signal. */
  lemma ConstantIndexNoSignal(bars: seq<Bar>, c: real)
    requires forall k :: 0 <= k < |bars| ==> bars[k].indexClose == Some(c)
    ensures forall i :: 0 <= i < |bars| ==> !Xg(bars)[i]
  {
    forall i | 0 <= i < |bars| ensures !XgAt(bars, i) {
      FlatIndexNoSignal(bars, i, c);
    }
  }

  /** Splitting a sum at its first element. */
  lemma {:induction false} SumFront(xs: seq<real>)
    requires |xs| > 0
    ensures Sum(xs) == xs[0] + Sum(xs[1..])
    decreases |xs|
  {
    if |xs| > 1 {
      var init := xs[..|xs| - 1];
      SumFront(init);
      assert init[1..] == xs[1..][..|xs| - 2];
    }
  }

  /**
    Condition 5 in plain terms: from bar 7 on, `ma7` rises exactly when the
    close exceeds the close that just left the 7-bar window.
   */
  lemma TrendRisingIff(bars: seq<Bar>, i: nat)
    requires MaWindow <= i < |bars|
    ensures TrendRising(Ma7(bars), i) <==> bars[i].close > bars[i - MaWindow].close
  {
    var c := Closes(bars);
    var prev := c[i - MaWindow .. i];
    var cur := c[i + 1 - MaWindow .. i + 1];
    SumFront(prev);
    assert prev[1..] == cur[..|cur| - 1];
    assert Sum(cur) == Sum(prev) - c[i - MaWindow] + c[i];
  }

  /**
    Condition 7 in plain terms: with positive prices, the close is at most 3%
    above `ma7` (and `ma7` is present).
   */
  lemma NotExtendedIff(bars: seq<Bar>, i: nat)
    requires i < |bars|
    requires forall k :: 0 <= k < |bars| ==> bars[k].close > 0.0
    ensures NotExtended(bars, Ma7(bars), i) <==>
      MaWindow - 1 <= i && 100.0 * bars[i].close <= (100.0 + MaxExtensionPct) * Ma7(bars)[i].value
  {
    if MaWindow - 1 <= i {
      var c := Closes(bars);
      var win := c[i + 1 - MaWindow .. i + 1];
      SumPositive(win);
      var m := Ma7(bars)[i].value;
      assert m > 0.0;
      var q := (bars[i].close - m) / m;
      assert q * m == bars[i].close - m;
      assert q * 100.0 <= MaxExtensionPct <==> q * m * 100.0 <= MaxExtensionPct * m;
    }
  }

  /** A non-empty sum of positive numbers is positive. */
  lemma {:induction false} SumPositive(xs: seq<real>)
    requires |xs| > 0
    requires forall k :: 0 <= k < |xs| ==> xs[k] > 0.0
    ensures Sum(xs) > 0.0
    decreases |xs|
  {
    if |xs| > 1 {
      SumPositive(xs[..|xs| - 1]);
    }
  }
}

=== FILE: strategy.dfy ===
/**
  The strategy end to end: indicators and signal computed from the bars, the
  trading loop fed with them, and the result panel computed from the loop.
 */
module Strategy {
  import opened Maybe
  import opened Indicators
  import opened Signal
  import opened Backtest
  import opened TradeLog
  import opened Metrics

  /** The loop run on the series' own `ma7` and `xg` columns. */
  function RunStrategy(bars: seq<Bar>, capital: real): (r: Outcome)
    requires NoZeroClose(bars)
    ensures |r.history| == |bars|
  {
    Run(bars, Ma7(bars), Xg(bars), capital)
  }

  /** The result panel of a non-empty series. */
  function Report(bars: seq<Bar>, capital: real): (r: Summary)
    requires NoZeroClose(bars) && |bars| > 0
    ensures r.signalCount == |SignalBars(Xg(bars))|
    ensures r.finalValue == RunStrategy(bars, capital).history[|bars| - 1]
    ensures r.returnPct == ReturnPct(r.finalValue, capital)
  {
    Summarize(RunStrategy(bars, capital).history, Xg(bars), capital)
  }

  /** A series without any signal bar trades never and reports a flat result. */
  lemma {:induction false} NoSignalFlat(bars: seq<Bar>, capital: real)
    requires NoZeroClose(bars) && |bars| > 0
    requires forall i :: 0 <= i < |bars| ==> !Xg(bars)[i]
    ensures RunStrategy(bars, capital).log == []
    ensures forall i :: 0 <= i < |bars| ==> RunStrategy(bars, capital).history[i] == capital
    ensures Report(bars, capital).finalValue == capital
    ensures Report(bars, capital).signalCount == 0
    ensures capital != 0.0 ==> Report(bars, capital).returnPct == Some(0.0)
  {
    NoSignalRun(bars, Ma7(bars), Xg(bars), capital, |bars|);
    CountSignalsIsCardinality(Xg(bars));
  }

  /** Fewer than 30 bars: no signal, no trade, a flat result. */
  lemma ShortSeriesFlat(bars: seq<Bar>, capital: real)
    requires NoZeroClose(bars) && 0 < |bars| < LimitUpWindow
    ensures RunStrategy(bars, capital).log == []
    ensures Report(bars, capital).finalValue == capital
    ensures Report(bars, capital).signalCount == 0
  {
    ShortSeriesNoSignal(bars);
    NoSignalFlat(bars, capital);
  }

  /** An index that never moves blocks every signal, so the strategy never trades. */
  lemma ConstantIndexFlat(bars: seq<Bar>, capital: real, c: real)
    requires NoZeroClose(bars) && 0 < |bars|
    requires forall k :: 0 <= k < |bars| ==> bars[k].indexClose == Some(c)
    ensures RunStrategy(bars, capital).log == []
    ensures Report(bars, capital).finalValue == capital
    ensures Report(bars, capital).signalCount == 0
  {
    ConstantIndexNoSignal(bars, c);
    NoSignalFlat(bars, capital);
  }

  /**
    Whatever the capital, every buy of the strategy happens on bar 29 or
    later, on a bar whose 30-bar percent-change window, index average, `ma7`
    and oscillator (today and yesterday) are all present.
   */
  lemma BuysNeedFullHistory(bars: seq<Bar>, capital: real)
    requires NoZeroClose(bars)
    ensures var log := RunStrategy(bars, capital).log;
      forall k :: 0 <= k < |log| && log[k].action == Buy ==>
        && LimitUpWindow - 1 <= log[k].bar < |bars|
        && Ma7(bars)[log[k].bar].Some?
        && Q2(Closes(bars))[log[k].bar].Some?
  {
    var log := RunStrategy(bars, capital).log;
    RunBuysOnSignals(bars, Ma7(bars), Xg(bars), capital, |bars|);
    forall k | 0 <= k < |log| && log[k].action == Buy
      ensures LimitUpWindow - 1 <= log[k].bar < |bars| && Ma7(bars)[log[k].bar].Some? && Q2(Closes(bars))[log[k].bar].Some?
    {
      assert Xg(bars)[log[k].bar];
    }
  }
}

=== FILE: tradelog.dfy ===
/**
  What the trading loop guarantees about its action log and its account, for
  any `ma7` and signal columns, given a positive starting capital and
  positive closes:
    - the log alternates buy, sell, buy, ... starting with a buy, in bar order;
    - cash and shares are never both non-zero, and never both zero;
    - while a position is open the stop line is the low of the bar it was
      bought on;
    - every recorded value is the previous cash plus the previous shares at
      that bar's close, so the final value compounds the closed trades.
 */
module TradeLog {
  import opened Maybe
  import opened Indicators
  import opened Backtest

  /** Even positions of the log are buys and odd positions are sells. */
  predicate Alternating(log: seq<LogEntry>)
  {
    forall k :: 0 <= k < |log| ==> log[k].action == (if k % 2 == 0 then Buy else Sell)
  }

  /**
    Log lines appear in bar order; a sell may share its bar with the next buy
    (exit check before entry check), but a buy is always sold on a later bar.
   */
  predicate Chronological(log: seq<LogEntry>)
  {
    forall k :: 0 <= k < |log| - 1 ==>
      log[k].bar <= log[k + 1].bar && (log[k].action == Buy ==> log[k].bar < log[k + 1].bar)
  }

  predicate PositiveLogPrices(log: seq<LogEntry>)
  {
    forall k :: 0 <= k < |log| ==> log[k].price > 0.0
  }

  /**
    Every buy happened on a signal bar, and every sell on a bar whose close
    was below the low of the preceding buy's bar or below that bar's `ma7`.
   */
  predicate Justified(log: seq<LogEntry>, bars: seq<Bar>, ma7: seq<Option<real>>, xg: seq<bool>)
    requires AtCloses(log, bars) && Aligned(bars, ma7, xg)
  {
    && (forall k :: 0 <= k < |log| && log[k].action == Buy ==> xg[log[k].bar])
    && (forall k :: 0 < k < |log| && log[k].action == Sell ==>
          ExitRule(bars[log[k].bar].close, bars[log[k - 1].bar].low, ma7[log[k].bar]))
  }

  /** The factor `exit / entry` by which one trade multiplies the money. */
  function Ratio(exit: real, entry: real): real
    requires entry != 0.0
  {
    exit / entry
  }

  /**
    The factor by which the first `n` round trips of the log multiplied the
    money: the product of exit price over entry price.
   */
  function Growth(log: seq<LogEntry>, n: nat): real
    requires 2 * n <= |log| && PositiveLogPrices(log)
    decreases n
  {
    if n == 0 then 1.0 else Growth(log, n - 1) * Ratio(log[2 * n - 1].price, log[2 * n - 2].price)
  }

  lemma {:induction false} GrowthPositive(log: seq<LogEntry>, n: nat)
    requires 2 * n <= |log| && PositiveLogPrices(log)
    ensures Growth(log, n) > 0.0
    decreases n
  {
    if n > 0 {
      GrowthPositive(log, n - 1);
      var q := Ratio(log[2 * n - 1].price, log[2 * n - 2].price);
      assert q > 0.0;
    }
  }

  /** Appending to the log does not change the growth of the round trips already in it. */
  lemma {:induction false} GrowthPrefix(log: seq<LogEntry>, more: seq<LogEntry>, n: nat)
    requires 2 * n <= |log| && PositiveLogPrices(log + more)
    ensures PositiveLogPrices(log)
    ensures Growth(log + more, n) == Growth(log, n)
    decreases n
  {
    assert forall k :: 0 <= k < |log| ==> (log + more)[k] == log[k];
    if n > 0 {
      GrowthPrefix(log, more, n - 1);
    }
  }

  /**
    The money is where the log says: flat (even log) means no shares and the
    capital compounded over the closed trades in cash; long (odd log) means no
    cash, shares worth that amount at the last buy's price, and the stop line
    at the last buy bar's low.
   */
  predicate Holding(a: Account, log: seq<LogEntry>, bars: seq<Bar>, capital: real)
    requires AtCloses(log, bars) && PositiveLogPrices(log)
  {
    if |log| % 2 == 0 then
      a.shares == 0.0 && a.cash == capital * Growth(log, |log| / 2)
    else
      && a.cash == 0.0
      && a.shares * log[|log| - 1].price == capital * Growth(log, |log| / 2)
      && a.stop == bars[log[|log| - 1].bar].low
  }

  /** The facts about the log alone that the loop keeps true. */
  predicate WellFormedLog(log: seq<LogEntry>, bars: seq<Bar>, ma7: seq<Option<real>>, xg: seq<bool>)
    requires Aligned(bars, ma7, xg)
  {
    && AtCloses(log, bars)
    && PositiveLogPrices(log)
    && Alternating(log)
    && Chronological(log)
    && Justified(log, bars, ma7, xg)
  }

  /** Everything the loop keeps true between bars. */
  predicate Invariant(a: Account, log: seq<LogEntry>, bars: seq<Bar>, ma7: seq<Option<real>>, xg: seq<bool>, capital: real)
    requires Aligned(bars, ma7, xg)
  {
    WellFormedLog(log, bars, ma7, xg) && Holding(a, log, bars, capital)
  }

  /** Flat: some cash and no shares. Long: no cash and some shares. */
  predicate Exclusive(a: Account)
  {
    (a.cash > 0.0 && a.shares == 0.0) || (a.cash == 0.0 && a.shares > 0.0)
  }

  /** With positive capital the invariant puts the account in exactly one of the two states. */
  lemma {:induction false} InvariantExclusive(a: Account, log: seq<LogEntry>, bars: seq<Bar>, ma7: seq<Option<real>>, xg: seq<bool>, capital: real)
    requires Aligned(bars, ma7, xg) && capital > 0.0
    requires Invariant(a, log, bars, ma7, xg, capital)
    ensures Exclusive(a)
    ensures a.shares > 0.0 <==> |log| % 2 == 1
  {
    HoldingExclusive(a, log, bars, capital);
  }

  /** An account where a log with positive prices says it is, from a positive capital, is flat or long but not both. */
  lemma {:induction false} HoldingExclusive(a: Account, log: seq<LogEntry>, bars: seq<Bar>, capital: real)
    requires capital > 0.0 && AtCloses(log, bars) && PositiveLogPrices(log)
    requires Holding(a, log, bars, capital)
    ensures Exclusive(a)
    ensures a.shares > 0.0 <==> |log| % 2 == 1
  {
    GrowthPositive(log, |log| / 2);
    var g := capital * Growth(log, |log| / 2);
    assert g > 0.0;
    if |log| % 2 == 1 {
      PositiveFactor(a.shares, log[|log| - 1].price, g);
    }
  }

  lemma PositiveFactor(x: real, p: real, g: real)
    requires p > 0.0 && g > 0.0 && x * p == g
    ensures x > 0.0
  {
  }

  /** Appending a line that continues the alternation, the bar order and the justification keeps the log well formed. */
  lemma {:induction false} ExtendLog(log: seq<LogEntry>, entry: LogEntry, bars: seq<Bar>, ma7: seq<Option<real>>, xg: seq<bool>)
    requires Aligned(bars, ma7, xg) && PositivePrices(bars)
    requires WellFormedLog(log, bars, ma7, xg)
    requires entry.bar < |bars| && entry.price == bars[entry.bar].close
    requires entry.action == (if |log| % 2 == 0 then Buy else Sell)
    requires |log| > 0 ==> log[|log| - 1].bar <= entry.bar
    requires |log| > 0 && log[|log| - 1].action == Buy ==> log[|log| - 1].bar < entry.bar
    requires entry.action == Buy ==> xg[entry.bar]
    requires entry.action == Sell && |log| > 0 ==>
      ExitRule(bars[entry.bar].close, bars[log[|log| - 1].bar].low, ma7[entry.bar])
    ensures WellFormedLog(log + [entry], bars, ma7, xg)
  {
    AppendAtClose(log, entry, bars);
    ExtendAlternating(log, entry);
    ExtendChronological(log, entry);
    ExtendJustified(log, entry, bars, ma7, xg);
  }

  lemma {:induction false} ExtendAlternating(log: seq<LogEntry>, entry: LogEntry)
    requires Alternating(log)
    requires entry.action == (if |log| % 2 == 0 then Buy else Sell)
    ensures Alternating(log + [entry])
  {
    var log' := log + [entry];
    forall k | 0 <= k < |log'|
      ensures log'[k].action == (if k % 2 == 0 then Buy else Sell)
    {
      if k < |log| {
        assert log'[k] == log[k];
      }
    }
  }

  lemma {:induction false} ExtendChronological(log: seq<LogEntry>, entry: LogEntry)
    requires Chronological(log)
    requires |log| > 0 ==> log[|log| - 1].bar <= entry.bar
    requires |log| > 0 && log[|log| - 1].action == Buy ==> log[|log| - 1].bar < entry.bar
    ensures Chronological(log + [entry])
  {
    var log' := log + [entry];
    forall k | 0 <= k < |log'| - 1
      ensures log'[k].bar <= log'[k + 1].bar && (log'[k].action == Buy ==> log'[k].bar < log'[k + 1].bar)
    {
      assert log'[k] == log[k];
      if k + 1 < |log| {
        assert log'[k + 1] == log[k + 1];
      }
    }
  }

  lemma {:induction false} ExtendJustified(log: seq<LogEntry>, entry: LogEntry, bars: seq<Bar>, ma7: seq<Option<real>>, xg: seq<bool>)
    requires Aligned(bars, ma7, xg)
    requires AtCloses(log, bars) && AtCloses(log + [entry], bars) && Justified(log, bars, ma7, xg)
    requires entry.bar < |bars|
    requires entry.action == Buy ==> xg[entry.bar]
    requires entry.action == Sell && |log| > 0 ==>
      ExitRule(bars[entry.bar].close, bars[log[|log| - 1].bar].low, ma7[entry.bar])
    ensures Justified(log + [entry], bars, ma7, xg)
  {
    var log' := log + [entry];
    forall k | 0 <= k < |log'| && log'[k].action == Buy
      ensures xg[log'[k].bar]
    {
      if k < |log| {
        assert log'[k] == log[k];
      }
    }
    forall k | 0 < k < |log'| && log'[k].action == Sell
      ensures ExitRule(bars[log'[k].bar].close, bars[log'[k - 1].bar].low, ma7[log'[k].bar])
    {
      assert log'[k - 1] == log[k - 1];
      if k < |log| {
        assert log'[k] == log[k];
      }
    }
  }

  /** Appending a line at a bar's close keeps every line at a positive close of the series. */
  lemma {:induction false} AppendAtClose(log: seq<LogEntry>, entry: LogEntry, bars: seq<Bar>)
    requires PositivePrices(bars) && AtCloses(log, bars) && PositiveLogPrices(log)
    requires entry.bar < |bars| && entry.price == bars[entry.bar].close
    ensures AtCloses(log + [entry], bars) && PositiveLogPrices(log + [entry])
  {
    assert forall k :: 0 <= k < |log| ==> (log + [entry])[k] == log[k];
  }

  /** Buying with all the cash at price `p` leaves shares worth that cash at `p`. */
  lemma BuyingConserves(cash: real, p: real)
    requires p > 0.0
    ensures (cash / p) * p == cash
  {
  }

  /** From a flat state, spending all cash on `entry` leaves the account where the extended log says. */
  lemma {:induction false} HoldAfterBuy(a: Account, log: seq<LogEntry>, entry: LogEntry, log': seq<LogEntry>, bars: seq<Bar>, capital: real)
    requires log' == log + [entry] && entry.bar < |bars| && entry.price > 0.0
    requires AtCloses(log, bars) && PositiveLogPrices(log) && AtCloses(log', bars) && PositiveLogPrices(log')
    requires |log| % 2 == 0 && Holding(a, log, bars, capital)
    ensures Holding(Account(0.0, a.cash / entry.price, bars[entry.bar].low), log', bars, capital)
  {
    GrowthPrefix(log, [entry], |log| / 2);
    assert log'[|log'| - 1] == entry;
    BuyingConserves(a.cash, entry.price);
  }

  /** A buy from a flat state puts the account where the extended log says. */
  lemma {:induction false} BuyHolding(a: Account, log: seq<LogEntry>, bars: seq<Bar>, capital: real, i: nat, xg: bool)
    requires PositivePrices(bars) && i < |bars|
    requires AtCloses(log, bars) && PositiveLogPrices(log) && |log| % 2 == 0
    requires Holding(a, log, bars, capital)
    requires xg
    ensures var e := CheckEntry(a, i, bars[i], xg);
      var log' := log + e.entries;
      AtCloses(log', bars) && PositiveLogPrices(log') && Holding(e.account, log', bars, capital)
  {
    var e := CheckEntry(a, i, bars[i], xg);
    var entry := LogEntry(i, Buy, bars[i].close);
    assert e.entries == [entry];
    AppendAtClose(log, entry, bars);
    HoldAfterBuy(a, log, entry, log + e.entries, bars, capital);
  }

  /** Selling shares bought with `capital * g` at `p` yields `capital * (g * (close / p))` at `close`. */
  lemma SaleProceeds(shares: real, p: real, close: real, capital: real, g: real)
    requires p > 0.0 && shares * p == capital * g
    ensures shares * close == capital * (g * Ratio(close, p))
  {
    assert shares == capital * g / p;
  }

  /** Closing the open trade multiplies the growth by exit over entry price. */
  lemma {:induction false} GrowthCloseTrip(log: seq<LogEntry>, sell: LogEntry, log': seq<LogEntry>)
    requires log' == log + [sell]
    requires |log| % 2 == 1 && PositiveLogPrices(log')
    ensures PositiveLogPrices(log)
    ensures Growth(log', |log'| / 2) == Growth(log, |log| / 2) * Ratio(sell.price, log[|log| - 1].price)
  {
    var m := |log| / 2;
    GrowthPrefix(log, [sell], m);
    assert |log'| / 2 == m + 1;
    assert log'[2 * m] == log[|log| - 1];
    assert log'[2 * m + 1] == sell;
  }

  /** From a long state, selling everything on `entry` leaves the account where the extended log says. */
  lemma {:induction false} HoldAfterSell(a: Account, log: seq<LogEntry>, entry: LogEntry, log': seq<LogEntry>, bars: seq<Bar>, capital: real)
    requires log' == log + [entry]
    requires AtCloses(log, bars) && PositiveLogPrices(log) && AtCloses(log', bars) && PositiveLogPrices(log')
    requires |log| % 2 == 1 && Holding(a, log, bars, capital)
    ensures Holding(Account(a.shares * entry.price, 0.0, a.stop), log', bars, capital)
  {
    GrowthCloseTrip(log, entry, log');
    SaleProceeds(a.shares, log[|log| - 1].price, entry.price, capital, Growth(log, |log| / 2));
  }

  /** A sale from a long state puts the account where the extended log says. */
  lemma {:induction false} SellHolding(a: Account, log: seq<LogEntry>, bars: seq<Bar>, capital: real, i: nat, ma7: Option<real>)
    requires PositivePrices(bars) && i < |bars|
    requires AtCloses(log, bars) && PositiveLogPrices(log) && |log| % 2 == 1
    requires Holding(a, log, bars, capital)
    requires CheckExit(a, i, bars[i], ma7).entries != []
    ensures var x := CheckExit(a, i, bars[i], ma7);
      var log' := log + x.entries;
      AtCloses(log', bars) && PositiveLogPrices(log') && Holding(x.account, log', bars, capital)
  {
    var x := CheckExit(a, i, bars[i], ma7);
    var entry := LogEntry(i, Sell, bars[i].close);
    assert x.entries == [entry];
    AppendAtClose(log, entry, bars);
    HoldAfterSell(a, log, entry, log + x.entries, bars, capital);
  }

  /**
    The entry check, from a flat state whose log lines are all on bars up to
    `i`, keeps the invariant.
   */
  lemma {:induction false} EntryKeeps(a: Account, log: seq<LogEntry>, bars: seq<Bar>, ma7: seq<Option<real>>, xg: seq<bool>, capital: real, i: nat)
    requires Aligned(bars, ma7, xg) && PositivePrices(bars) && capital > 0.0 && i < |bars|
    requires Invariant(a, log, bars, ma7, xg, capital) && |log| % 2 == 0
    requires forall k :: 0 <= k < |log| ==> log[k].bar <= i
    ensures var e := CheckEntry(a, i, bars[i], xg[i]);
      && Invariant(e.account, log + e.entries, bars, ma7, xg, capital)
      && forall k :: 0 <= k < |log + e.entries| ==> (log + e.entries)[k].bar <= i
  {
    var e := CheckEntry(a, i, bars[i], xg[i]);
    if e.entries != [] {
      var entry := LogEntry(i, Buy, bars[i].close);
      assert e.entries == [entry];
      if |log| > 0 {
        assert log[|log| - 1].action == Sell;
      }
      ExtendLog(log, entry, bars, ma7, xg);
      BuyHolding(a, log, bars, capital, i, xg[i]);
    }
    else {
      assert log + e.entries == log;
    }
  }

  /**
    The exit check, from a state whose log lines are all on earlier bars than
    `i`, keeps the invariant.
   */
  lemma {:induction false} ExitKeeps(a: Account, log: seq<LogEntry>, bars: seq<Bar>, ma7: seq<Option<real>>, xg: seq<bool>, capital: real, i: nat)
    requires Aligned(bars, ma7, xg) && PositivePrices(bars) && capital > 0.0 && i < |bars|
    requires Invariant(a, log, bars, ma7, xg, capital)
    requires forall k :: 0 <= k < |log| ==> log[k].bar < i
    ensures var x := CheckExit(a, i, bars[i], ma7[i]);
      && Invariant(x.account, log + x.entries, bars, ma7, xg, capital)
      && forall k :: 0 <= k < |log + x.entries| ==> (log + x.entries)[k].bar <= i
  {
    var x := CheckExit(a, i, bars[i], ma7[i]);
    InvariantExclusive(a, log, bars, ma7, xg, capital);
    if x.entries != [] {
      var entry := LogEntry(i, Sell, bars[i].close);
      assert x.entries == [entry];
      assert |log| % 2 == 1;
      assert a.stop == bars[log[|log| - 1].bar].low;
      ExtendLog(log, entry, bars, ma7, xg);
      SellHolding(a, log, bars, capital, i, ma7[i]);
    }
    else {
      assert log + x.entries == log;
    }
  }

  /** One iteration of the loop, on a bar after every logged one, keeps the invariant. */
  lemma {:induction false} StepKeeps(a: Account, log: seq<LogEntry>, bars: seq<Bar>, ma7: seq<Option<real>>, xg: seq<bool>, capital: real, i: nat)
    requires Aligned(bars, ma7, xg) && PositivePrices(bars) && capital > 0.0 && i < |bars|
    requires Invariant(a, log, bars, ma7, xg, capital)
    requires forall k :: 0 <= k < |log| ==> log[k].bar < i
    ensures var s := Step(a, i, bars[i], ma7[i], xg[i]);
      Invariant(s.account, log + s.entries, bars, ma7, xg, capital)
  {
    var x := CheckExit(a, i, bars[i], ma7[i]);
    var log1 := log + x.entries;
    var e := CheckEntry(x.account, i, bars[i], xg[i]);
    assert Invariant(e.account, log1 + e.entries, bars, ma7, xg, capital) by {
      ExitKeeps(a, log, bars, ma7, xg, capital, i);
      if |log1| % 2 == 0 {
        EntryKeeps(x.account, log1, bars, ma7, xg, capital, i);
      }
      else {
        InvariantExclusive(x.account, log1, bars, ma7, xg, capital);
        assert e.entries == [];
        assert log1 + e.entries == log1;
      }
    }
    assert log + (x.entries + e.entries) == log1 + e.entries;
  }

  /**
    The loop keeps the invariant on every prefix of the series: after each
    bar the log alternates, is in bar order, is justified by the signal and
    the exit rule, and the account is where the log says.
   */
  lemma {:induction false} RunKeepsInvariant(bars: seq<Bar>, ma7: seq<Option<real>>, xg: seq<bool>, capital: real, n: nat)
    requires Aligned(bars, ma7, xg) && PositivePrices(bars) && capital > 0.0 && n <= |bars|
    ensures var r := RunUpTo(bars, ma7, xg, capital, n);
      Invariant(r.account, r.log, bars, ma7, xg, capital)
    decreases n
  {
    if n > 0 {
      var i := n - 1;
      var prev := RunUpTo(bars, ma7, xg, capital, i);
      var s := Step(prev.account, i, bars[i], ma7[i], xg[i]);
      assert Invariant(s.account, prev.log + s.entries, bars, ma7, xg, capital) by {
        RunKeepsInvariant(bars, ma7, xg, capital, i);
        RunLogAtCloses(bars, ma7, xg, capital, i);
        StepKeeps(prev.account, prev.log, bars, ma7, xg, capital, i);
      }
      var r := RunUpTo(bars, ma7, xg, capital, n);
      assert r.account == s.account && r.log == prev.log + s.entries by {
        RunUpToNext(bars, ma7, xg, capital, i);
      }
    }
  }

  /** After every bar, cash and shares are never both non-zero (nor both zero). */
  lemma {:induction false} CashSharesExclusive(bars: seq<Bar>, ma7: seq<Option<real>>, xg: seq<bool>, capital: real, n: nat)
    requires Aligned(bars, ma7, xg) && PositivePrices(bars) && capital > 0.0 && n <= |bars|
    ensures Exclusive(RunUpTo(bars, ma7, xg, capital, n).account)
  {
    var r := RunUpTo(bars, ma7, xg, capital, n);
    RunKeepsInvariant(bars, ma7, xg, capital, n);
    InvariantExclusive(r.account, r.log, bars, ma7, xg, capital);
  }

  /**
    The action log alternates buy, sell, ... starting with a buy, in bar
    order; it ends on a buy exactly when a position is still open (an open
    position gets no closing sell); and every line is justified.
   */
  lemma {:induction false} LogAlternates(bars: seq<Bar>, ma7: seq<Option<real>>, xg: seq<bool>, capital: real)
    requires Aligned(bars, ma7, xg) && PositivePrices(bars) && capital > 0.0
    ensures var r := Run(bars, ma7, xg, capital);
      && Alternating(r.log)
      && Chronological(r.log)
      && AtCloses(r.log, bars)
      && Justified(r.log, bars, ma7, xg)
      && (r.account.shares > 0.0 <==> |r.log| % 2 == 1)
  {
    var r := Run(bars, ma7, xg, capital);
    RunKeepsInvariant(bars, ma7, xg, capital, |bars|);
    InvariantExclusive(r.account, r.log, bars, ma7, xg, capital);
  }

  /**
    While a position is open, the stop line is the low of the bar the
    position was bought on: it is set once at entry and never trails.
   */
  lemma {:induction false} StopIsEntryLow(bars: seq<Bar>, ma7: seq<Option<real>>, xg: seq<bool>, capital: real, n: nat)
    requires Aligned(bars, ma7, xg) && PositivePrices(bars) && capital > 0.0 && n <= |bars|
    ensures var r := RunUpTo(bars, ma7, xg, capital, n);
      r.account.shares > 0.0 ==>
        |r.log| > 0 && r.log[|r.log| - 1].action == Buy && r.log[|r.log| - 1].bar < n &&
        r.account.stop == bars[r.log[|r.log| - 1].bar].low
  {
    var r := RunUpTo(bars, ma7, xg, capital, n);
    RunKeepsInvariant(bars, ma7, xg, capital, n);
    RunLogAtCloses(bars, ma7, xg, capital, n);
    InvariantExclusive(r.account, r.log, bars, ma7, xg, capital);
  }

  /**
    Value conservation: the value recorded on bar `i` is the cash plus the
    shares held before the bar, marked at bar `i`'s close, whatever trades
    happen on the bar.
   */
  lemma {:induction false} EquityConserved(bars: seq<Bar>, ma7: seq<Option<real>>, xg: seq<bool>, capital: real, i: nat)
    requires Aligned(bars, ma7, xg) && NoZeroClose(bars) && i < |bars|
    ensures var before := RunUpTo(bars, ma7, xg, capital, i).account;
      Run(bars, ma7, xg, capital).history[i] == Value(before, bars[i].close)
  {
    NeverBoth(bars, ma7, xg, capital, i);
    ValueAt(bars, ma7, xg, capital, i);
    HistoryStable(bars, ma7, xg, capital, i + 1, |bars|);
    assert Run(bars, ma7, xg, capital).history[..i + 1][i] == Run(bars, ma7, xg, capital).history[i];
  }

  /**
    The capital compounded over the closed round trips of `log`, times the
    mark-to-market factor `close / entry price` of a trade still open.
   */
  function Compounded(log: seq<LogEntry>, capital: real, close: real): real
    requires PositiveLogPrices(log)
  {
    capital * Growth(log, |log| / 2) * (if |log| % 2 == 1 then Ratio(close, log[|log| - 1].price) else 1.0)
  }

  /**
    The final value is the capital times the product of exit over entry
    price of the closed trades, times the last close over the entry price
    when a position is still open.
   */
  lemma {:induction false} FinalEquity(bars: seq<Bar>, ma7: seq<Option<real>>, xg: seq<bool>, capital: real)
    requires Aligned(bars, ma7, xg) && PositivePrices(bars) && capital > 0.0 && |bars| > 0
    ensures var r := Run(bars, ma7, xg, capital);
      PositiveLogPrices(r.log) && r.history[|bars| - 1] == Compounded(r.log, capital, bars[|bars| - 1].close)
  {
    FinalAccountValue(bars, ma7, xg, capital);
    RunLastValue(bars, ma7, xg, capital);
  }

  /** The account the loop ends with is worth the compounded capital at the last close. */
  lemma {:induction false} FinalAccountValue(bars: seq<Bar>, ma7: seq<Option<real>>, xg: seq<bool>, capital: real)
    requires Aligned(bars, ma7, xg) && PositivePrices(bars) && capital > 0.0 && |bars| > 0
    ensures var r := Run(bars, ma7, xg, capital);
      PositiveLogPrices(r.log) &&
      Value(r.account, bars[|bars| - 1].close) == Compounded(r.log, capital, bars[|bars| - 1].close)
  {
    var r := Run(bars, ma7, xg, capital);
    assert AtCloses(r.log, bars) && PositiveLogPrices(r.log) && Holding(r.account, r.log, bars, capital) by {
      RunKeepsInvariant(bars, ma7, xg, capital, |bars|);
    }
    HoldingValue(r.account, r.log, bars, capital, bars[|bars| - 1].close);
  }

  /** The value of an account at `close`, in terms of the log that put it there. */
  lemma {:induction false} HoldingValue(a: Account, log: seq<LogEntry>, bars: seq<Bar>, capital: real, close: real)
    requires AtCloses(log, bars) && PositiveLogPrices(log) && Holding(a, log, bars, capital)
    ensures Value(a, close) == Compounded(log, capital, close)
  {
    var g := Growth(log, |log| / 2);
    if |log| % 2 == 1 {
      var p := log[|log| - 1].price;
      assert a.shares * close == capital * (g * Ratio(close, p)) by {
        SaleProceeds(a.shares, p, close, capital, g);
      }
    }
  }
}
